=== FILE: README.md ===
# web_3d per-tick simulation core, modelled in Dafny

The browser city walk-and-drive demo runs everything from one `animate`
callback in `main.js`. This project models the logic that callback runs
each frame, as pure functions over immutable records:

- **Frame limiter** (`Control`): the accumulator that lets `animate` run
  at most 60 simulated frames per second of wall-clock time.
- **Occupied-car step** (`Drivetrain`, `Chassis`, `CarStep`):
  - the reverse/brake key micro-machine and steering smoothing;
  - wheel and engine RPM, and the six-speed automatic gearbox;
  - the torque curve, the drive and braking forces, and the bicycle-model tyre forces;
  - velocity and yaw integration, with per-tick friction and the reverse-speed cap;
  - the front and rear wall bounces;
  - the four-wheel ground conformance that sets height, pitch, roll and suspension roll;
  - the wheel roll angle.
- **Loose physics props** (`Props`): `updatePhysicsObjects`.
  - the spawn counter;
  - car impacts, including the throw on a car never driven;
  - gravity, integration and per-tick decay;
  - the wall reflection and push-out;
  - the ground snap with its fall-speed floor.
- **Walking player** (`Player`):
  - jump eligibility from five foot probes;
  - the jump frames and the landing;
  - easing the eye height toward the lowest ground.
- **Controls** (`Control`):
  - `getActiveCar`;
  - the nearest-car scan;
  - the F key that enters and leaves cars;
  - the held-trigger shot limiter.

Everything the source gets from Three.js or the browser arrives as a
parameter:

- raycast results (`GroundProbe`, `WallHit`, `Option` heights and normals);
- the collider bounding box;
- the random spin axes;
- clock readings.

`Math.sqrt`, `sin`, `cos` and `atan2` are uninterpreted functions in a
`Numerics` record. Numbers are reals. JavaScript's truncating `%` is
written out (`Base.JsRemTwoPi`). Where the source compares a
square-rooted length against a constant, the model compares squares.

Behaviours of the code a reader may not expect, kept as written:

- A wall hit multiplies the car's `vx` by -0.15 (main.js:2100, 2196), so
  the car rebounds at 15% of its speed instead of stopping
  (`Chassis.WallBounce`, `Chassis.DoubleBounce`).
- The prop ground snap moves the centre by
  `sign(difference)·min(|difference|, |vy·delta| + 0.5)` (main.js:2607-2610),
  so it pulls a prop that sits above its rest height down as well as up
  (`Props.GroundSnapPullsDown`).
- The velocity decays multiply by a constant once per tick, with no
  `delta` in them (main.js:1952-1959 for cars, main.js:2473-2474 for props).
  The decay per second therefore depends on the frame rate
  (`Drivetrain.LongitudinalDecayIsPerTick`, `Props.DecayDependsOnTickCount`).
- The mouse-down handler stamps `lastShotTime` with the current time, and
  its comment at main.js:1062 says this is so the first shot fires at once.
  With the rate check at main.js:1077, that stamp in fact holds the first
  shot back by 100 ms (`Control.FirstShotHeldBack`).
- Pitch and roll check only two of the four wheel heights for `null`
  (main.js:2154, 2163) before all four enter the arithmetic, so a missing
  FR, RR or RL height is read as 0
  (`Chassis.PitchReadsMissingWheelAsZero`, `Chassis.RollReadsMissingWheelAsZero`).
- A car never driven has no physics record, and the prop loop reads its
  velocity without a check (main.js:2424-2426). If such a car is parked
  within 2.5 of a prop, the prop update throws (`Props.UndrivenCarThrows`).

## Model

| member | source | states |
|---|---|---|
| Drivetrain.ReadPedals | main.js:1805-1832 | Holding S above speed 0.5 without reverse brakes. Reverse is on exactly when S is held and the car was already reversing or is at or below 0.5; engaging it gives throttle -1 and no brake. Releasing S ends reverse and restores forward throttle and brake. Throttle is negative exactly while backing up. |
| Drivetrain.ReverseIsSticky | main.js:1809-1827 | Once reversing, holding S keeps full reverse throttle over any sequence of speeds. |
| Drivetrain.ReverseNeedsNearStop | main.js:1809-1822 | Holding S from forward motion at speeds above 0.5 on every tick only brakes and never reaches reverse. |
| Drivetrain.SteerTarget | main.js:1834-1836 | Steering target is +1 exactly for left alone, -1 exactly for right alone, else 0. |
| Drivetrain.SmoothSteer | main.js:1837 | One tick closes a quarter of the gap to the target, stays between old value and target, and keeps steering within [-1, 1]. |
| Drivetrain.SteerGapDecays | main.js:1837 | After n ticks holding one target the gap is exactly 0.75^n of the initial gap. |
| Drivetrain.SteerMax | main.js:1839-1840 | Steering limit is 0.7 below speed 10, 0.3 from speed 60, and always within [0.3, 0.7]. |
| Drivetrain.SteerMaxNonIncreasing | main.js:1840 | A faster car never gets a larger steering limit. |
| Drivetrain.SteerAngle | main.js:1841-1842 | The steering angle has magnitude steer·limit and its sign flips when the car rolls backwards. |
| Drivetrain.WheelRPM | main.js:1848 | Wheel RPM is non-negative and is the wheel-circumference conversion of abs(vx). |
| Drivetrain.WheelRPMMonotone | main.js:1848 | Wheel RPM grows with the magnitude of vx and ignores its sign. |
| Drivetrain.GearIndex | main.js:1857 | The gear table index is always in range, and for gears 1..6 it is gear - 1. |
| Drivetrain.GearRatio | main.js:1851-1858 | Reverse throttle uses the reverse ratio; forward uses the table ratio of the gear; every ratio is within [0.888, 3.635]. |
| Drivetrain.GearRatioNonIncreasing | main.js:1857 | Higher forward gears never have larger ratios. |
| Drivetrain.EngineRPM | main.js:1862-1863 | Engine RPM is the wheel-driven RPM through gearbox and final drive, floored at the 1000 idle. |
| Drivetrain.IdleAtStandstill | main.js:1848-1863 | A standing car idles at exactly 1000 RPM in every gear and direction. |
| Drivetrain.ShiftGear | main.js:1866-1880 | The gearbox moves at most one gear per tick. It shifts up exactly above 4900 RPM below 6th, and otherwise down exactly below 2800 RPM above 1st. Reverse throttle pins 1st, and gears stay within 1..6. |
| Drivetrain.GearTraceStaysInRange | main.js:1866-1880 | Over any run of forward ticks every gear visited is within 1..6 and consecutive gears differ by at most one. |
| Drivetrain.TorqueCurve | main.js:1884-1907 | The torque factor is within [0.7, 1]; it is flat 1 in reverse and on 1500..6000 RPM. |
| Drivetrain.TorqueCurveUnimodal | main.js:1896-1906 | Forwards, the torque factor rises up to 1500 RPM and never rises after it. |
| Drivetrain.EngineTorque | main.js:1884-1911 | Engine torque is zero without throttle and has the sign of the throttle. |
| Drivetrain.DriveForce | main.js:1913-1922 | Drive force is zero without throttle, in (0, 16000] with forward throttle, and in [-25000, 0) in reverse. |
| Drivetrain.ReverseDriveForceIsConstant | main.js:1913-1919 | Full reverse always pushes with exactly 10224.375 N, so the ±25000 clamp never binds. |
| Drivetrain.ForwardDriveForceBelowClamp | main.js:1913-1921 | Full forward throttle never exceeds 10618.74375 N, so the 16000 clamp never binds. |
| Drivetrain.ClampSlip | main.js:1929-1930 | Slip angles saturate at ±0.35 and are unchanged inside that band. |
| Drivetrain.TyreForcesBounded | main.js:1925-1933 | With a sine no larger in magnitude than its argument, the saturated tyre forces never exceed 4480 N at the front and 3920 N at the rear. |
| Drivetrain.TyreForcesOpposeSlip | main.js:1925-1933 | With a sine that has its argument's sign on ±0.35, each axle's force has the sign opposite to that axle's unsaturated slip angle. |
| Drivetrain.StraightRunNoTyreForce | main.js:1925-1933 | Driving straight with no sideways speed, no yaw rate and no steering gives zero force on both axles, at any forward speed. |
| Drivetrain.BrakingForce | main.js:1936-1940 | Braking acts only with the brake on above speed 0.1. It never pushes along vx, has magnitude min(20000, 3000·abs(vx)), and is non-zero on a moving car. |
| Drivetrain.LongitudinalDecay | main.js:1952-1958 | The per-tick longitudinal friction factor is 0.9999 with reverse throttle and 0.9992 otherwise, so a reversing car loses less speed; both lie strictly between 0.999 and 1. |
| Drivetrain.Longitudinal | main.js:1949-1966 | vx is the force-integrated speed times the per-tick friction factor. In reverse, and only in reverse, that value is floored at -2.78; above the floor it is kept. |
| Drivetrain.ReverseCapIsOneSided | main.js:1964-1966 | The reverse cap only bounds vx from below: a car rolling forwards at 10 keeps 9.999 on a reverse tick. |
| Drivetrain.LongitudinalDecayIsPerTick | main.js:1949-1958 | Without force, the new vx does not depend on the frame time. |
| Drivetrain.Lateral | main.js:1950-1959 | Without lateral force the slip speed loses exactly 3% per tick and keeps its sign. |
| Drivetrain.YawStep | main.js:1968-1972 | Without tyre torque the yaw rate loses 3% per tick and keeps its sign. The yaw advances by the new rate times the frame time. |
| Chassis.WallBounce | main.js:2094-2106 | A qualifying wall hit reverses vx at 15% of its magnitude. It keeps 30% of vy and half the yaw rate, both with their signs, and moves the body 0.15 away. Other probe results change nothing. |
| Chassis.DoubleBounce | main.js:2094-2106 | Front and rear hits in one tick leave 2.25% of vx, in its original direction. |
| Chassis.HitCount | main.js:2145-2149 | The number of grounded wheels never exceeds the number of wheels. |
| Chassis.HitCountExtremes | main.js:2145-2149 | No wheel is counted exactly when every probe missed, and all are counted exactly when every probe hit. |
| Chassis.MeanHeight | main.js:2148-2149 | The mean times the number of grounded wheels is their summed height. |
| Chassis.PerHitIsProduct | main.js:2145-2149 | Counting a value once per grounded wheel gives the number of grounded wheels times that value. |
| Chassis.HitSumBounds | main.js:2145-2149 | The sum of grounded wheel heights within [lo, hi] lies between lo and hi counted once per grounded wheel, i.e. within [n·lo, n·hi]. |
| Chassis.MeanWithin | main.js:2148-2149 | The average of grounded wheel heights lies between the lowest and highest of them. |
| Chassis.SuspensionStep | main.js:2170-2174 | Suspension roll moves toward the clamped yaw-driven target without overshooting and never leaves ±π/12 once inside. |
| Chassis.PitchDiff | main.js:2154-2160 | With all four wheels down the pitch difference is the mean of the left and right front-minus-rear height differences. |
| Chassis.RollDiff | main.js:2163-2167 | With all four wheels down the roll difference is the mean of the front and rear left-minus-right height differences. |
| Chassis.MissingWheelReadsAsZero | main.js:2154-2167 | For any probe result, the pitch and roll differences are those of the same wheels with every missing height replaced by 0. |
| Chassis.Conform | main.js:2109-2177 | Conformance acts only with body ground, ground meshes and three grounded wheels. The height then becomes their mean plus 0.05. With FL and RL down the pitch becomes atan2(pitch difference, 2); otherwise pitch is kept. With FL and FR down, suspension roll takes one step and roll becomes atan2(roll difference, 1.4) plus it; otherwise both are kept. |
| Chassis.ConformHeightWithinGround | main.js:2144-2151 | The conformed body height is 0.05 above a height between the lowest and highest grounded wheel. |
| Chassis.PitchReadsMissingWheelAsZero | main.js:2154-2160 | On flat ground at h with FR missing, conformance sets pitch to atan2(-h/2, 2), instead of the level pitch a 0 difference would give. |
| Chassis.RollReadsMissingWheelAsZero | main.js:2163-2167 | On flat ground at h with RL missing, conformance sets roll to atan2(-h/2, 1.4) plus the suspension roll, instead of the level roll a 0 difference would give. |
| Chassis.LevelGroundIsLevel | main.js:2144-2167 | On level ground with four wheels down the body sits 0.05 above it and the pitch and roll differences are 0. |
| Chassis.WheelRollAngle | main.js:2003-2004 | The wheel angle is travel/radius reduced by a whole number of turns, keeping the sign of the travel within (-2π, 2π). |
| CarStep.InitialState | main.js:1792-1802 | A car's first physics record is at rest in 1st gear with yaw taken from its heading. Throttle, brake, steering, yaw rate and both RPMs are 0, and it is not reversing. |
| CarStep.PowertrainStep | main.js:1848-1922 | Engine RPM is at least idle. The gear is the shifted gear. Drive force is in [-25000, 0) in reverse and [0, 16000] otherwise. |
| CarStep.Dynamics | main.js:1936-1985 | After braking, tyre forces and integration, a reverse tick keeps vx at or above -2.78. The height is kept, and the yaw advances by the new yaw rate times the frame time. |
| CarStep.Step | main.js:1768-2202 | One occupied tick. The stored throttle, brake and reverse flag are the pedal reading of the keys at the start-of-tick speed; the gear is the gearbox's shift from the previous gear at the new engine RPM; the steering is one smoothing step toward the A/D target. The engine is at least at idle, and reverse is on exactly when S is held and the car was reversing or at speed 0.5 or less. Gear, steering and suspension roll stay in range, and a reverse tick without wall hits keeps vx ≥ -2.78. The height is the wheel mean + 0.05 when conformance applies, and the body height and attitude are unchanged otherwise. |
| CarStep.StepKeepsValid | main.js:1768-2202 | A tick keeps the gear within 1..6, steering within [-1, 1] and suspension roll within ±π/12. |
| CarStep.DriveKeepsValid | main.js:1768-2202 | Over any number of ticks the car stays valid, and after the first tick it idles or faster with reverse matching a negative throttle. |
| Props.NewProp | main.js:513-527 | A new prop starts at rest with no spin, inactive and not grounded, with zero ground and spawn counters. It is spawning and awaiting initial placement, with gravity -9.81 and friction 0.98. |
| Props.SpawnTick | main.js:2404-2415 | The spawn counter counts up while spawning. The eleventh tick ends spawning and clears the initial-placement request, and position and velocity are untouched. |
| Props.SpawnLasts | main.js:2404-2415 | A prop that has counted c spawning ticks stays spawning for exactly 11 - c more ticks. |
| Props.NewPropSpawnsElevenTicks | main.js:2404-2415 | A new prop is still spawning after 10 ticks and no longer after 11. |
| Props.Impact | main.js:2426-2452 | A car at speed 0.5 or less does nothing. A faster car wakes the prop and adds 0.8 of its speed along the normalized car-to-prop direction to the velocity, plus a lift of 0.6 of its speed. It adds the spin axis times 1.5 of its speed to the spin. |
| Props.ImpactAwayFromCar | main.js:2426-2452 | Apart from the lift, the kick lies on the line from the car to the prop and points away from the car. |
| Props.CarImpacts | main.js:2418-2454 | The loop throws exactly at the first car in range whose physics record is missing; every car in range before it was driven. Without a throw, no undriven car was in range. If no driven car in range is faster than 0.5 the prop is unchanged. Without a throw, one such car is enough to activate the prop, and the prop becomes active only through one. Position and spawn flags are untouched. |
| Props.DrivenCarKicks | main.js:2424-2452 | A driven car in range applies its impact to the prop and the loop does not throw. |
| Props.KicksAddUp | main.js:2418-2454 | Without a throw, the prop's velocity gains exactly the sum of the kicks of the driven cars in range faster than 0.5: each along the car-to-prop line at 0.8 of the car's speed, with a lift of 0.6 of it. |
| Props.UndrivenCarThrows | main.js:2424-2426 | An undriven car within 2.5 of a prop makes the update throw. |
| Props.Integrate | main.js:2457-2474 | Gravity is applied before the move, and the prop moves by its velocity times the frame time. Velocity then decays by the prop's friction and spin by 0.95, once per tick. Gravity and friction are kept. |
| Props.DecayDependsOnTickCount | main.js:2457-2474 | After ticks of any lengths, the horizontal velocity is friction^n and the spin 0.95^n of the start, with n the number of ticks, whatever the time elapsed. |
| Props.WallThresholdsDiffer | main.js:2514 | A normal with up-component 0.6 is a wall for a car but not for a prop. |
| Props.FirstWall | main.js:2496-2545 | Finds the first probe that reports a wall (abs(normal.y) < 0.5); no earlier probe does. |
| Props.WallNormal | main.js:2521 | The wall normal is flattened onto the ground plane and stays on the line of the hit normal's horizontal part, on the same side as it (given a non-negative square root). It is non-zero when that part is. |
| Props.PushDistance | main.js:2534-2536 | The push-out is at least 0.15 and at least the half-width across the wall plus 0.05, and it is one of the two, so it is exactly the larger. |
| Props.Reflect | main.js:2524-2530 | Moving away from a wall keeps the velocity. Moving into it leaves a horizontal velocity along the normal, with normal component -0.8 times the normal speed, so the tangential part is dropped. The vertical speed is kept. |
| Props.ReflectionSlows | main.js:2524-2530 | Against a unit normal, the reflected horizontal speed is 0.8 of the normal speed and never exceeds the incoming horizontal speed. |
| Props.ReflectionDropsTangent | main.js:2526-2529 | Sliding into a wall at a shallow angle keeps only 0.8 of the normal speed, reversed, and no slide. |
| Props.WallPass | main.js:2477-2546 | Without wall meshes, with horizontal speed at most 0.01, or with no wall hit, nothing changes. Otherwise the first wall reflects the velocity and pushes the prop out along its flattened normal. |
| Props.Approach | main.js:2602-2614 | The snap lands on the target for the initial placement or within 0.01. Otherwise it moves toward the target by min(gap, abs(vy·delta) + 0.5) without overshooting. |
| Props.GroundSnapPullsDown | main.js:2607-2610 | A prop resting 4 above its target is pulled down by 0.5, not left in place. |
| Props.GroundPass | main.js:2550-2636 | Runs only with ground meshes, while the prop awaits initial placement or once it has stopped spawning; a placed prop still spawning skips it. A hit grounds the prop between its height and the rest height (exactly at it when initially placed). The height moves exactly as `Approach` gives, by `min(|diff|, |vy·delta| + 0.5)` toward the rest height. The ground counter becomes 3. A prop slower than 0.1 stops and keeps 85% of its spin; a faster one keeps its velocity with the fall speed floored at -2, and its spin. A miss ungrounds the prop, zeroes the counter and floors the fall speed, and changes nothing else. |
| Props.PropStep | main.js:2400-2637 | A throw comes from an undriven car. Otherwise, once the ground pass runs, the fall speed is at least -2. |
| Props.RestingPropStaysPut | main.js:2457-2636 | A settled prop resting 0.05 above flat ground, with no horizontal motion, no cars and abs(vy) ≤ 2, is back at the same height after a tick of up to one second. |
| Props.FirstThrow | main.js:2400-2454 | Finds the first prop whose step threw; every earlier one completed. It finds none exactly when no step threw. |
| Props.Collect | main.js:2400-2640 | Step results are taken in order until the first throw. Without a throw every prop is its step's result. With one, the props up to the thrower are their results and the later props are left as they were. |
| Props.UpdateAll | main.js:2397-2640 | Without a throw every prop takes its own step. The update throws exactly when some prop's car loop throws. |
| Props.UpdateAllStopsAtFirstThrow | main.js:2400-2454 | The throwing prop is the first whose car loop throws. Every earlier prop is fully stepped, and the throwing prop keeps its partial changes. |
| Player.CanJump | main.js:961-994 | Space may start a jump exactly when some foot probe finds the eye within 0.2 of standing height. Without ground meshes, it is when the eye is within 0.1 of 1.6. |
| Player.PressSpace | main.js:959-999 | A jump starts from rest only when not already jumping and eligible; otherwise nothing changes. |
| Player.JumpTick | main.js:1593-1629 | The first 20 frames add lift. Over a hit, the jump lands exactly when falling with the feet within 0.3 above ground; otherwise it lands at eye height 1.6 or below. Landing puts the eye at standing height with zero speed. |
| Player.RisingStep | main.js:1593-1629 | A lift frame over a hit, or one that starts above the floor height, does not land; it adds 0.0045 to the speed and the new speed to the height. |
| Player.AscentFrom | main.js:1593-1598 | From any point of the lift phase, the remaining lift frames keep the rising pattern: after j frames the speed is 0.0045·j and the height has gained 0.0045·(1 + … + j). |
| Player.JumpAscent | main.js:1593-1598 | During the 20 lift frames a jump never lands: after k frames the speed is 0.0045·k and the eye has risen 0.0045·(1 + … + k). |
| Player.TriClosedForm | main.js:1593-1598 | 2·(1 + … + n) = n·(n + 1), so the rise after k lift frames is 0.00225·k·(k + 1). |
| Player.LandingRestoresEligibility | main.js:1606-1628 | After a landing the eye is at standing height over the hit, so Space is eligible again. |
| Player.LowestHit | main.js:1641-1653 | The lowest hit is missing exactly when every probe missed. Otherwise it is one of the hits and no hit is lower. |
| Player.LowestGround | main.js:1641-1653 | The easing probe loop computes the lowest hit. |
| Player.Ease | main.js:1655-1664 | One easing frame moves toward standing height without overshooting and stays put within 0.01. Otherwise it closes between 10% and 30% of the gap. |
| Player.EaseSettles | main.js:1655-1664 | After n easing frames the gap is within 0.01 or at most 0.9^n of the initial gap. |
| Player.VerticalFrame | main.js:1593-1666 | While jumping a frame is a jump tick. Otherwise the eye eases toward the lowest hit and never rises above standing height over any hit or its current height. Without ground meshes or hits it stays put. |
| Control.ActiveCar | main.js:292-297 | The driven car exists exactly when the index is in range, and it is the car at that index. |
| Control.NearestCar | main.js:886-900 | Returns -1 exactly when no loaded car with a body is within 3. Otherwise it returns such a car no farther than any other, strictly nearer than every earlier one, so the first wins ties. |
| Control.ToggleCar | main.js:884-931 | Walking: enter the nearest car, if any. Driving: walk again, standing 2 along the car's right at the exit height when the car has a body. Mode and index always agree. |
| Control.PressF | main.js:884-931 | While walking, F enters a car exactly when one is in reach: the nearest one, the first on ties. It changes only the mode and the index, so the player stays put. With no car in reach nothing changes. It keeps mode and index consistent. |
| Control.EnterThenLeave | main.js:884-931 | Entering then pressing F again gives walking mode with no car, beside the car at the exit height. |
| Control.LeavingStandsReadyToJump | main.js:916-928 | The exit height equals the jump's landing height, so a player leaving a car over probed ground may jump. |
| Control.MouseDown | main.js:1059-1063 | The left button while walking with the gun ready holds the trigger and stamps the time; anything else changes nothing. |
| Control.MouseUp | main.js:1066-1069 | The left button releases the trigger and keeps the stamp. |
| Control.Shoot | main.js:1073-1080 | A shot fires exactly when the gun is ready and 100 ms have passed since the stamp, and it restamps. |
| Control.FirstShotHeldBack | main.js:1059-1080 | Pressed at t, the trigger first fires on a frame at t + 100 or later. |
| Control.FiredTimes | main.js:1073-1080 | Held fire shoots only at frame times, each at least 100 ms after the previous. It shoots at all exactly when some frame comes 100 ms or more after the stamp, and the first shot is at the first such frame. |
| Control.FirstDue | main.js:1077 | The first frame time at least 100 ms after the stamp: every earlier frame is too soon. |
| Control.FiredSpread | main.js:1073-1080 | n shots span at least 100·(n-1) ms. |
| Control.FrameGate | main.js:1513-1522 | A frame runs exactly when a whole frame's time is banked. Running spends one frame's time; a skipped callback leaves less than one frame banked. |
| Control.FrameRun | main.js:1513-1522 | Over a run of callbacks, no more frames run than there were callbacks. |
| Control.FrameRunKeepsTime | main.js:1513-1522 | Frames run plus time banked account exactly for time elapsed. With time never going backwards, the simulation never runs ahead of the wall clock. |

## Left out

- `main.py`: a static file server, unrelated to the simulation.
- Rendering is not modelled, because it has no bearing on the simulated state:
  - the HUD, camera, minimap, overview mode and effects;
  - animation mixers;
  - audio;
  - assigning the wheel angles to the wheel meshes.
- Model and collider loading is not modelled, including the collider retry. It is asynchronous I/O; the model takes its outcome (`loaded`, a body, ground or wall meshes present) as input.
- Raycasts, `getColliderBoundingBox` and `Box3.setFromObject` are not modelled. Their results are parameters, so the ray origins and lengths they use are not modelled either.
- `Math.sqrt`, `sin`, `cos`, `atan2`: uninterpreted. A property that depends on their values is stated only under an explicit assumption that the real function satisfies, such as a non-negative square root or a sine no larger than its argument.
- Floating point: the model computes over the reals. Exact decimal equalities such as `Drivetrain.ReverseDriveForceIsConstant` hold for reals, not bit-for-bit for doubles.
- Drivetrain.TyreLateral: no contract of its own. Its bound, sign and straight-line behaviour are stated by `Drivetrain.TyreForcesBounded`, `Drivetrain.TyreForcesOpposeSlip` and `Drivetrain.StraightRunNoTyreForce`, each under an assumption on `sin` or `atan2` that the real functions satisfy.
- CarStep.Dynamics: the position update uses `sin`/`cos` of the new yaw. Only the reverse-speed floor, the yaw advance and the unchanged height are stated.
- Props: the quaternion update of the prop orientation from its spin (main.js:2463-2470) is not modelled. The model keeps the spin vector.
- Props: the random spin axes of car impacts are inputs, because randomness is external.
- Props: the periodic debug log of the ground pass (main.js:2583-2588) is not modelled, because it prints only.
- Props: props and cars without a scene object are skipped by the source (main.js:2401, 2419). The model's lists hold only props and cars that have one.
- Props.PropStep: it states the throw and the fall-speed floor only. The rest of the step is stated member by member (`Props.Integrate`, `Props.WallPass`, `Props.GroundPass`).
- Walking: horizontal movement, rotation, `canMove` wall checks and the footstep audio are not modelled. They act on the horizontal plane and audio only.
- Cars: the physics of cars other than the driven one are not modelled, because the source does not update them.
- The FPS counter is not modelled, because it affects display only.

=== FILE: base.dfy ===
/**
 Shared vocabulary of the simulation: optional values, three-component
 vectors over the reals, the JavaScript numeric helpers the render loop
 relies on (`Math.sign`, `Math.max/min`, the truncating `%`), and the
 library numerics that are taken as opaque parameters.
 */
module Base {

  /** A value that may be missing (a raycast that hit nothing, a JS `null`). */
  datatype Option<+T> = None | Some(value: T) {

    /** The value, or `default` when missing. */
    function GetOr(default: T): T {
      match this
      case Some(v) => v
      case None => default
    }
  }

  /** `Math.PI` as the decimal expansion of its double value. */
  const Pi: real := 3.141592653589793

  /**
   The library numerics the source calls (`Math.sqrt`, `Math.sin`,
   `Math.cos`, `Math.atan2`), taken as uninterpreted total functions.
   */
  datatype Numerics = Numerics(
    sqrt: real -> real,
    sin: real -> real,
    cos: real -> real,
    atan2: (real, real) -> real)

  function Abs(x: real): (r: real)
    ensures r >= 0.0
    ensures r == x || r == -x
  {
    if x < 0.0 then -x else x
  }

  function Max(a: real, b: real): (r: real)
    ensures r >= a && r >= b
    ensures r == a || r == b
  {
    if a >= b then a else b
  }

  function Min(a: real, b: real): (r: real)
    ensures r <= a && r <= b
    ensures r == a || r == b
  {
    if a <= b then a else b
  }

  /** `Math.max(lo, Math.min(hi, x))`. */
  function Clamp(x: real, lo: real, hi: real): (r: real)
    requires lo <= hi
    ensures lo <= r <= hi
    ensures lo <= x <= hi ==> r == x
  {
    Max(lo, Min(hi, x))
  }

  /** `Math.sign`: -1, 0 or 1. */
  function Sign(x: real): (r: real)
    ensures r == -1.0 || r == 0.0 || r == 1.0
    ensures r * x == Abs(x)
  {
    if x > 0.0 then 1.0 else if x < 0.0 then -1.0 else 0.0
  }

  /** Truncation toward zero, as JavaScript's `%` uses for its quotient. */
  function Trunc(x: real): (r: int)
    ensures x >= 0.0 ==> 0.0 <= x - (r as real) < 1.0
    ensures x <= 0.0 ==> -1.0 < x - (r as real) <= 0.0
  {
    if x >= 0.0 then x.Floor else -((-x).Floor)
  }

  /** `Math.PI * 2`. */
  const TwoPi: real := 2.0 * Pi

  /**
   JavaScript's `x % (Math.PI * 2)`: the remainder carries the sign of the
   dividend, unlike Dafny's Euclidean `%`.
   */
  function JsRemTwoPi(x: real): (r: real)
    ensures x >= 0.0 ==> 0.0 <= r < TwoPi
    ensures x <= 0.0 ==> -TwoPi < r <= 0.0
    ensures ((x - r) / TwoPi).Floor as real == (x - r) / TwoPi
  {
    var k := Trunc(x / TwoPi);
    var r := x - (k as real) * TwoPi;
    assert x == r + (k as real) * TwoPi;
    r
  }

  lemma MulNonNeg(a: real, b: real)
    requires a >= 0.0 && b >= 0.0
    ensures a * b >= 0.0
  {
  }

  /** `b` to the power `n`. */
  function Pow(b: real, n: nat): real
  {
    if n == 0 then 1.0 else b * Pow(b, n - 1)
  }

  lemma PowShift(b: real, n: nat)
    ensures Pow(b, n + 1) == b * Pow(b, n)
  {
  }

  /** A downward ground raycast: no ground meshes loaded at all, a miss, or the height it hit. */
  datatype GroundProbe = NoGroundMeshes | Miss | Hit(groundY: real)

  /** A vector of three reals (a `THREE.Vector3`). */
  datatype Vec3 = Vec3(x: real, y: real, z: real)

  function Add(a: Vec3, b: Vec3): Vec3 {
    Vec3(a.x + b.x, a.y + b.y, a.z + b.z)
  }

  function Sub(a: Vec3, b: Vec3): Vec3 {
    Vec3(a.x - b.x, a.y - b.y, a.z - b.z)
  }

  function Scale(a: Vec3, k: real): Vec3 {
    Vec3(a.x * k, a.y * k, a.z * k)
  }

  function Dot(a: Vec3, b: Vec3): real {
    a.x * b.x + a.y * b.y + a.z * b.z
  }

  /** The squared length; the source only compares lengths, so no root is needed there. */
  function SqLen(a: Vec3): (r: real)
    ensures r >= 0.0
  {
    a.x * a.x + a.y * a.y + a.z * a.z
  }

  /** `Vector3.normalize`: divides by the length, or by 1 when the length is 0. */
  function Normalize(a: Vec3, num: Numerics): Vec3 {
    var len := num.sqrt(SqLen(a));
    if len == 0.0 then a else Scale(a, 1.0 / len)
  }
}

=== FILE: carstep.dfy ===
/**
 The occupied-car step of `animate`, composed from the drivetrain and
 chassis stages in the order the render loop runs them. Raycast results
 and library numerics arrive as inputs.
 */
module CarStep {
  import opened Base
  import opened Drivetrain
  import opened Chassis

  /** The lazily created per-car physics record. */
  datatype DriveState = DriveState(
    vx: real, vy: real, yaw: real, yawRate: real,
    throttle: real, brake: real, steer: real,
    engineRPM: real, currentGear: int, wheelRPM: real,
    isBackingUp: bool)

  /**
   A car: its body pose, the physics record (`None` until the car is first
   driven), and the visual state the step derives.
   */
  datatype Car = Car(
    pos: Vec3, heading: real, pitch: real, roll: real, suspensionRoll: real,
    state: Option<DriveState>,
    travel: real, wheelRoll: real, wheelSteer: real)

  /**
   The record a car gets the first time it is driven: at rest, pedals and
   steering released, in 1st gear, with yaw taken from its heading. Both
   RPMs start at 0, below idle, until the first step computes them.
   */
  function InitialState(heading: real): (s: DriveState)
    ensures s.currentGear == 1 && s.throttle == 0.0 && s.brake == 0.0 && !s.isBackingUp
    ensures s.vx == 0.0 && s.vy == 0.0 && s.yawRate == 0.0 && s.yaw == heading
    ensures s.steer == 0.0 && s.engineRPM == 0.0 && s.wheelRPM == 0.0
  {
    DriveState(0.0, 0.0, heading, 0.0, 0.0, 0.0, 0.0, 0.0, 1, 0.0, false)
  }

  /** What the car's probes report this tick. */
  datatype Probes = Probes(
    front: Option<WallHit>, back: Option<WallHit>,
    foundGround: bool, haveGround: bool,
    wheels: WheelProbes)

  /** The world-space forward (−Z rotated by yaw about +Y). */
  function Forward(num: Numerics, yaw: real): Vec3 {
    Vec3(-num.sin(yaw), 0.0, -num.cos(yaw))
  }

  /** The world-space right (+X rotated by yaw about +Y). */
  function Right(num: Numerics, yaw: real): Vec3 {
    Vec3(num.cos(yaw), 0.0, -num.sin(yaw))
  }

  /** The speed that gates braking and reversing and sets the steering limit. */
  function Speed(s: DriveState, num: Numerics): real {
    num.sqrt(s.vx * s.vx + s.vy * s.vy)
  }

  /** The engine side of the step: wheel RPM, engine RPM, the shifted gear and the drive force. */
  datatype Powertrain = Powertrain(wheelRPM: real, engineRPM: real, gear: int, drive: real)

  function PowertrainStep(throttle: real, vx: real, gear: int): (p: Powertrain)
    ensures p.wheelRPM >= 0.0 && p.engineRPM >= IdleRPM
    ensures p.gear == ShiftGear(throttle, p.engineRPM, gear)
    ensures throttle < 0.0 ==> -25000.0 <= p.drive < 0.0
    ensures throttle >= 0.0 ==> 0.0 <= p.drive <= 16000.0
  {
    var wheelRPM := WheelRPM(vx);
    var rpm := EngineRPM(wheelRPM, GearRatio(throttle, gear));
    Powertrain(wheelRPM, rpm, ShiftGear(throttle, rpm, gear), DriveForce(throttle, rpm, gear))
  }

  /** The planar motion after the dynamics, and the new yaw (which the wall bounces leave alone). */
  datatype Moved = Moved(motion: Motion, yaw: real)

  /**
   The body dynamics after the powertrain: braking, tyre forces, velocity
   and yaw integration, and the move along the new heading.
   */
  function Dynamics(s: DriveState, pedals: Pedals, steerAngle: real, drive: real, speed: real,
                    pos: Vec3, delta: real, num: Numerics): (d: Moved)
    ensures pedals.throttle < 0.0 ==> d.motion.vx >= -MaxBackupSpeed
    ensures d.motion.pos.y == pos.y
    ensures d.yaw - s.yaw == d.motion.yawRate * delta
  {
    var braking := BrakingForce(pedals.brake, speed, s.vx);
    var tyres := TyreLateral(num, s.vx, s.vy, s.yawRate, steerAngle);
    var cosSteer := num.cos(steerAngle);
    var vx := Longitudinal(s.vx, drive + braking, pedals.throttle, delta);
    var vy := Lateral(s.vy, tyres.front * cosSteer + tyres.rear, delta);
    var yaw := YawStep(s.yaw, s.yawRate, WheelBase / 2.0 * (tyres.front * cosSteer - tyres.rear), delta);
    var fwd := Forward(num, yaw.yaw);
    var right := Right(num, yaw.yaw);
    var pos' := Add(Add(pos, Scale(fwd, vx * delta)), Scale(right, vy * delta));
    Moved(Motion(vx, vy, yaw.yawRate, pos'), yaw.yaw)
  }

  /**
   One tick of the occupied car. The physics record is created on first
   use; the pedals, steering, powertrain and dynamics are updated; then the
   front wall probe, the four-wheel ground conformance and the rear wall
   probe act in that order.
   */
  function Step(car: Car, keys: Keys, delta: real, probes: Probes, num: Numerics): (r: Car)
    ensures r.state.Some?
    ensures var s0 := car.state.GetOr(InitialState(car.heading));
            var s := r.state.value;
            && s.engineRPM >= IdleRPM
            && s.wheelRPM >= 0.0
            && (s.throttle == -1.0 || s.throttle == 0.0 || s.throttle == 1.0)
            && (s.brake == 0.0 || s.brake == 1.0)
            && (s.throttle < 0.0 <==> s.isBackingUp)
            && (s.throttle < 0.0 ==> s.currentGear == 1)
            && (s.throttle >= 0.0 ==> s0.currentGear - 1 <= s.currentGear <= s0.currentGear + 1)
            && (1 <= s0.currentGear <= 6 ==> 1 <= s.currentGear <= 6)
            && (-1.0 <= s0.steer <= 1.0 ==> -1.0 <= s.steer <= 1.0)
            && (s.isBackingUp <==> keys.backward && (s0.isBackingUp || Speed(s0, num) <= 0.5))
            && (s.throttle < 0.0 && !IsCarWallHit(probes.front) && !IsCarWallHit(probes.back) ==>
                  s.vx >= -MaxBackupSpeed)
            && r.heading == s.yaw
            && Pedals(s.throttle, s.brake, s.isBackingUp) == ReadPedals(keys, s0.isBackingUp, Speed(s0, num))
            && s.currentGear == ShiftGear(s.throttle, s.engineRPM, s0.currentGear)
            && s.steer == SmoothSteer(s0.steer, SteerTarget(keys.left, keys.right))
    ensures -TwoPi < r.wheelRoll < TwoPi
    ensures -MaxRoll <= car.suspensionRoll <= MaxRoll ==> -MaxRoll <= r.suspensionRoll <= MaxRoll
    ensures !(probes.foundGround && probes.haveGround && HitCount(Heights(probes.wheels)) >= 3) ==>
              r.pos.y == car.pos.y && r.pitch == car.pitch && r.roll == car.roll
              && r.suspensionRoll == car.suspensionRoll
    ensures probes.foundGround && probes.haveGround && HitCount(Heights(probes.wheels)) >= 3 ==>
              r.pos.y == MeanHeight(Heights(probes.wheels)) + 0.05
  {
    var s := car.state.GetOr(InitialState(car.heading));
    var speed := Speed(s, num);
    var pedals := ReadPedals(keys, s.isBackingUp, speed);
    var steer := SmoothSteer(s.steer, SteerTarget(keys.left, keys.right));
    var steerMax := SteerMax(speed);
    var steerAngle := SteerAngle(steer, steerMax, s.vx);
    var pt := PowertrainStep(pedals.throttle, s.vx, s.currentGear);
    var dyn := Dynamics(s, pedals, steerAngle, pt.drive, speed, car.pos, delta, num);
    var m := dyn.motion;
    var yaw := dyn.yaw;
    var fwd := Forward(num, yaw);
    var travel := car.travel + m.vx * delta;
    var afterFront := WallBounce(m, probes.front, Scale(fwd, -1.0));
    var tilt := Conform(Tilt(afterFront.pos.y, car.pitch, car.roll, car.suspensionRoll), probes.wheels,
                        probes.foundGround, probes.haveGround, afterFront.yawRate, num);
    var grounded := afterFront.(pos := afterFront.pos.(y := tilt.y));
    var afterBack := WallBounce(grounded, probes.back, fwd);
    var state := DriveState(afterBack.vx, afterBack.vy, yaw, afterBack.yawRate,
                            pedals.throttle, pedals.brake, steer,
                            pt.engineRPM, pt.gear, pt.wheelRPM, pedals.isBackingUp);
    Car(afterBack.pos, yaw, tilt.pitch, tilt.roll, tilt.suspensionRoll, Some(state),
        travel, WheelRollAngle(travel), steer * steerMax)
  }

  /** What one tick of driving is given: the keys, the frame time and the probe results. */
  datatype Tick = Tick(keys: Keys, delta: real, probes: Probes)

  /** Consecutive occupied ticks. */
  function Drive(car: Car, ticks: seq<Tick>, num: Numerics): Car
    decreases |ticks|
  {
    if |ticks| == 0 then car
    else Drive(Step(car, ticks[0].keys, ticks[0].delta, ticks[0].probes, num), ticks[1..], num)
  }

  /**
   The bounds every tick keeps: a gear of the six-speed box, a steering
   value in [-1, 1], and a suspension roll within ±π/12. A car never driven
   meets them through the record it will be given.
   */
  predicate Valid(car: Car)
  {
    var s := car.state.GetOr(InitialState(car.heading));
    && 1 <= s.currentGear <= 6
    && -1.0 <= s.steer <= 1.0
    && -MaxRoll <= car.suspensionRoll <= MaxRoll
  }

  lemma StepKeepsValid(car: Car, t: Tick, num: Numerics)
    requires Valid(car)
    ensures Valid(Step(car, t.keys, t.delta, t.probes, num))
  {
    var r := Step(car, t.keys, t.delta, t.probes, num);
    assert r.state.GetOr(InitialState(r.heading)) == r.state.value;
  }

  /**
   However long a car is driven, it stays within the bounds, and after the
   first tick the engine turns at least at idle and the reverse flag agrees
   with the throttle.
   */
  lemma {:induction false} DriveKeepsValid(car: Car, ticks: seq<Tick>, num: Numerics)
    requires Valid(car)
    ensures Valid(Drive(car, ticks, num))
    ensures |ticks| > 0 ==>
              var s := Drive(car, ticks, num).state;
              s.Some? && s.value.engineRPM >= IdleRPM && (s.value.throttle < 0.0 <==> s.value.isBackingUp)
    decreases |ticks|
  {
    if |ticks| > 0 {
      var next := Step(car, ticks[0].keys, ticks[0].delta, ticks[0].probes, num);
      StepKeepsValid(car, ticks[0], num);
      DriveKeepsValid(next, ticks[1..], num);
      if |ticks| == 1 {
        assert Drive(next, ticks[1..], num) == next;
      }
    }
  }
}

=== FILE: chassis.dfy ===
/**
 The body half of the occupied-car step: the front and rear wall bounce,
 the four-wheel ground conformance that sets height, pitch and roll, the
 suspension roll that follows the yaw rate, and the wheel roll angle.
 */
module Chassis {
  import opened Base

  // ---------------------------------------------------------------------------
  // Wall bounce
  // ---------------------------------------------------------------------------

  /** The nearest hit of a horizontal wall probe: its distance and the up-component of its normal. */
  datatype WallHit = WallHit(distance: real, normalY: real)

  /**
   A probe result the car reacts to: nearer than 0.6 and steep enough to be
   a wall (`|normal.y| < 0.7`) rather than a floor or ceiling.
   */
  predicate IsCarWallHit(hit: Option<WallHit>)
  {
    hit.Some? && hit.value.distance < 0.6 && Abs(hit.value.normalY) < 0.7
  }

  /** The planar motion a wall hit acts on. */
  datatype Motion = Motion(vx: real, vy: real, yawRate: real, pos: Vec3)

  /**
   The response to a wall hit: `vx` reverses at 15% of its magnitude, `vy`
   keeps 30%, the yaw rate half, and the body moves 0.15 along `away`.
   Without a qualifying hit nothing changes.
   */
  function WallBounce(m: Motion, hit: Option<WallHit>, away: Vec3): (r: Motion)
    ensures !IsCarWallHit(hit) ==> r == m
    ensures IsCarWallHit(hit) ==>
              && Abs(r.vx) == 0.15 * Abs(m.vx)
              && r.vx * m.vx <= 0.0
              && Abs(r.vy) == 0.3 * Abs(m.vy)
              && r.vy * m.vy >= 0.0
              && Abs(r.yawRate) == 0.5 * Abs(m.yawRate)
              && r.yawRate * m.yawRate >= 0.0
              && Sub(r.pos, m.pos) == Scale(away, 0.15)
  {
    if IsCarWallHit(hit) then
      assert (m.vx * -0.15) * m.vx == -0.15 * (m.vx * m.vx);
      assert (m.vy * 0.3) * m.vy == 0.3 * (m.vy * m.vy);
      assert (m.yawRate * 0.5) * m.yawRate == 0.5 * (m.yawRate * m.yawRate);
      Motion(m.vx * -0.15, m.vy * 0.3, m.yawRate * 0.5, Add(m.pos, Scale(away, 0.15)))
    else m
  }

  /** Two bounces in one tick (front then rear) leave 2.25% of `vx`, in its original direction. */
  lemma DoubleBounce(m: Motion, front: Option<WallHit>, back: Option<WallHit>, a: Vec3, b: Vec3)
    requires IsCarWallHit(front) && IsCarWallHit(back)
    ensures WallBounce(WallBounce(m, front, a), back, b).vx == 0.0225 * m.vx
  {
  }

  // ---------------------------------------------------------------------------
  // Ground conformance
  // ---------------------------------------------------------------------------

  /** The ground heights under the four wheels, `None` where the downward probe missed. */
  datatype WheelProbes = WheelProbes(fl: Option<real>, fr: Option<real>, rl: Option<real>, rr: Option<real>)

  function Heights(w: WheelProbes): seq<Option<real>> {
    [w.fl, w.fr, w.rl, w.rr]
  }

  function Hit(h: Option<real>): real {
    if h.Some? then 1.0 else 0.0
  }

  /** The count and sum over the four wheels, written out. */
  lemma HeightsUnfold(w: WheelProbes)
    ensures HitCount(Heights(w)) as real == Hit(w.fl) + Hit(w.fr) + Hit(w.rl) + Hit(w.rr)
    ensures HitSum(Heights(w)) == w.fl.GetOr(0.0) + w.fr.GetOr(0.0) + w.rl.GetOr(0.0) + w.rr.GetOr(0.0)
  {
    var hs := Heights(w);
    assert hs[1..] == [w.fr, w.rl, w.rr];
    assert hs[1..][1..] == [w.rl, w.rr];
    assert hs[1..][1..][1..] == [w.rr];
    assert hs[1..][1..][1..][1..] == [];
    assert HitCount(hs[1..][1..][1..]) as real == Hit(w.rr);
    assert HitSum(hs[1..][1..][1..]) == w.rr.GetOr(0.0);
    assert HitCount(hs[1..][1..]) as real == Hit(w.rl) + Hit(w.rr);
    assert HitSum(hs[1..][1..]) == w.rl.GetOr(0.0) + w.rr.GetOr(0.0);
    assert HitCount(hs[1..]) as real == Hit(w.fr) + Hit(w.rl) + Hit(w.rr);
    assert HitSum(hs[1..]) == w.fr.GetOr(0.0) + w.rl.GetOr(0.0) + w.rr.GetOr(0.0);
  }

  /** How many of the probes hit. */
  function HitCount(hs: seq<Option<real>>): (n: nat)
    ensures n <= |hs|
  {
    if |hs| == 0 then 0 else (if hs[0].Some? then 1 else 0) + HitCount(hs[1..])
  }

  /** No probe hit exactly when the count is 0, and every probe hit exactly when it is the number of probes. */
  lemma {:induction false} HitCountExtremes(hs: seq<Option<real>>)
    ensures HitCount(hs) == 0 <==> forall i :: 0 <= i < |hs| ==> hs[i].None?
    ensures HitCount(hs) == |hs| <==> forall i :: 0 <= i < |hs| ==> hs[i].Some?
    decreases |hs|
  {
    if |hs| > 0 {
      HitCountExtremes(hs[1..]);
      assert forall i :: 0 < i < |hs| ==> hs[1..][i - 1] == hs[i];
    }
  }

  /** The sum of the heights of the probes that hit. */
  function HitSum(hs: seq<Option<real>>): real
  {
    if |hs| == 0 then 0.0 else hs[0].GetOr(0.0) + HitSum(hs[1..])
  }

  /** Every probe that hit found ground within [lo, hi]. */
  predicate HitsWithin(hs: seq<Option<real>>, lo: real, hi: real)
  {
    forall i :: 0 <= i < |hs| && hs[i].Some? ==> lo <= hs[i].value <= hi
  }

  /** `x` counted once per probe that hit: `HitCount(hs) · x`, accumulated as the sum is. */
  function PerHit(hs: seq<Option<real>>, x: real): real
  {
    if |hs| == 0 then 0.0 else (if hs[0].Some? then x else 0.0) + PerHit(hs[1..], x)
  }

  lemma {:induction false} PerHitIsProduct(hs: seq<Option<real>>, x: real)
    ensures PerHit(hs, x) == (HitCount(hs) as real) * x
    decreases |hs|
  {
    if |hs| > 0 {
      PerHitIsProduct(hs[1..], x);
      var k := if hs[0].Some? then 1.0 else 0.0;
      assert HitCount(hs) as real == k + HitCount(hs[1..]) as real;
      assert (k + HitCount(hs[1..]) as real) * x == k * x + (HitCount(hs[1..]) as real) * x;
    }
  }

  /** The sum of `n` heights within [lo, hi] lies within [n·lo, n·hi]. */
  lemma {:induction false} HitSumBounds(hs: seq<Option<real>>, lo: real, hi: real)
    requires HitsWithin(hs, lo, hi)
    ensures PerHit(hs, lo) <= HitSum(hs) <= PerHit(hs, hi)
    decreases |hs|
  {
    if |hs| > 0 {
      assert HitsWithin(hs[1..], lo, hi) by {
        forall i | 0 <= i < |hs[1..]| && hs[1..][i].Some?
          ensures lo <= hs[1..][i].value <= hi
        {
          assert hs[1..][i] == hs[i + 1];
        }
      }
      HitSumBounds(hs[1..], lo, hi);
      if hs[0].Some? {
        assert lo <= hs[0].value <= hi;
      }
    }
  }

  /** The mean of the heights that hit. */
  function MeanHeight(hs: seq<Option<real>>): (m: real)
    requires HitCount(hs) > 0
    ensures m * (HitCount(hs) as real) == HitSum(hs)
  {
    HitSum(hs) / (HitCount(hs) as real)
  }

  /** The mean of grounded heights lies between the lowest and the highest of them. */
  lemma MeanWithin(hs: seq<Option<real>>, lo: real, hi: real)
    requires HitCount(hs) > 0
    requires HitsWithin(hs, lo, hi)
    ensures lo <= MeanHeight(hs) <= hi
  {
    HitSumBounds(hs, lo, hi);
    PerHitIsProduct(hs, lo);
    PerHitIsProduct(hs, hi);
    DivBounds(HitSum(hs), HitCount(hs) as real, PerHit(hs, lo), PerHit(hs, hi), lo, hi);
  }

  lemma DivBounds(s: real, n: real, a: real, b: real, lo: real, hi: real)
    requires n > 0.0
    requires a == n * lo && b == n * hi
    requires a <= s <= b
    ensures lo <= s / n <= hi
  {
    assert s == (s / n) * n;
  }

  /**
   The front-minus-rear height difference the source computes after checking
   only FL and RL: a missing FR or RR enters the average as 0, as JavaScript
   coerces `null` in arithmetic.
   */
  function PitchDiff(w: WheelProbes): (d: real)
    ensures w.fl.Some? && w.fr.Some? && w.rl.Some? && w.rr.Some? ==>
              d == ((w.fl.value - w.rl.value) + (w.fr.value - w.rr.value)) / 2.0
  {
    (w.fl.GetOr(0.0) + w.fr.GetOr(0.0)) / 2.0 - (w.rl.GetOr(0.0) + w.rr.GetOr(0.0)) / 2.0
  }

  /** The left-minus-right height difference, read after checking only FL and FR. */
  function RollDiff(w: WheelProbes): (d: real)
    ensures w.fl.Some? && w.fr.Some? && w.rl.Some? && w.rr.Some? ==>
              d == ((w.fl.value - w.fr.value) + (w.rl.value - w.rr.value)) / 2.0
  {
    (w.fl.GetOr(0.0) + w.rl.GetOr(0.0)) / 2.0 - (w.fr.GetOr(0.0) + w.rr.GetOr(0.0)) / 2.0
  }

  /** π/12, the limit of the suspension roll. */
  const MaxRoll: real := Pi / 12.0

  /**
   Suspension roll eases a tenth of the way toward `-0.08·yawRate`, clamped
   to ±π/12; it therefore never leaves ±π/12 once inside.
   */
  function SuspensionStep(roll: real, yawRate: real): (r: real)
    ensures -MaxRoll <= roll <= MaxRoll ==> -MaxRoll <= r <= MaxRoll
    ensures roll <= r <= Clamp(-yawRate * 0.08, -MaxRoll, MaxRoll)
         || Clamp(-yawRate * 0.08, -MaxRoll, MaxRoll) <= r <= roll
  {
    var target := Clamp(-yawRate * 0.08, -MaxRoll, MaxRoll);
    roll + (target - roll) * 0.1
  }

  /** The body attitude that ground conformance writes. */
  datatype Tilt = Tilt(y: real, pitch: real, roll: real, suspensionRoll: real)

  /**
   Four-wheel ground conformance. It runs only when the five-point body
   probe found ground and ground meshes exist, and acts only when at least
   three wheel probes hit: the height becomes their mean plus 0.05; pitch
   is recomputed when FL and RL hit, roll (and the suspension roll) when FL
   and FR hit.
   */
  function Conform(t: Tilt, w: WheelProbes, foundGround: bool, haveGround: bool,
                   yawRate: real, num: Numerics): (r: Tilt)
    ensures !(foundGround && haveGround && HitCount(Heights(w)) >= 3) ==> r == t
    ensures foundGround && haveGround && HitCount(Heights(w)) >= 3 ==>
              r.y == MeanHeight(Heights(w)) + 0.05
    ensures !(w.fl.Some? && w.rl.Some?) ==> r.pitch == t.pitch
    ensures !(w.fl.Some? && w.fr.Some?) ==> r.roll == t.roll && r.suspensionRoll == t.suspensionRoll
    ensures foundGround && haveGround && HitCount(Heights(w)) >= 3 && w.fl.Some? && w.rl.Some? ==>
              r.pitch == num.atan2(PitchDiff(w), 2.0)
    ensures foundGround && haveGround && HitCount(Heights(w)) >= 3 && w.fl.Some? && w.fr.Some? ==>
              r.suspensionRoll == SuspensionStep(t.suspensionRoll, yawRate)
              && r.roll == num.atan2(RollDiff(w), 1.4) + r.suspensionRoll
    ensures -MaxRoll <= t.suspensionRoll <= MaxRoll ==> -MaxRoll <= r.suspensionRoll <= MaxRoll
  {
    var hs := Heights(w);
    if foundGround && haveGround && HitCount(hs) >= 3 then
      var y := MeanHeight(hs) + 0.05;
      var pitch := if w.fl.Some? && w.rl.Some? then num.atan2(PitchDiff(w), 2.0) else t.pitch;
      if w.fl.Some? && w.fr.Some? then
        var sr := SuspensionStep(t.suspensionRoll, yawRate);
        Tilt(y, pitch, num.atan2(RollDiff(w), 1.4) + sr, sr)
      else
        Tilt(y, pitch, t.roll, t.suspensionRoll)
    else t
  }

  /** With three or more wheels grounded, the body rests 0.05 above a height between the lowest and highest of them. */
  lemma ConformHeightWithinGround(t: Tilt, w: WheelProbes, yawRate: real, num: Numerics, lo: real, hi: real)
    requires HitCount(Heights(w)) >= 3
    requires HitsWithin(Heights(w), lo, hi)
    ensures lo + 0.05 <= Conform(t, w, true, true, yawRate, num).y <= hi + 0.05
  {
    MeanWithin(Heights(w), lo, hi);
  }

  /**
   The null-coercion quirk: on flat ground at height `h` with FR missing,
   the pitch is computed from a height difference of `-h/2` instead of 0.
   */
  lemma PitchReadsMissingWheelAsZero(t: Tilt, h: real, yawRate: real, num: Numerics)
    ensures PitchDiff(WheelProbes(Some(h), None, Some(h), Some(h))) == -h / 2.0
    ensures Conform(t, WheelProbes(Some(h), None, Some(h), Some(h)), true, true, yawRate, num)
            == Tilt(h + 0.05, num.atan2(-h / 2.0, 2.0), t.roll, t.suspensionRoll)
  {
    HeightsUnfold(WheelProbes(Some(h), None, Some(h), Some(h)));
  }

  /**
   The same quirk for roll: on flat ground at height `h` with RL missing,
   the roll is computed from a height difference of `-h/2` instead of 0.
   */
  lemma RollReadsMissingWheelAsZero(t: Tilt, h: real, yawRate: real, num: Numerics)
    ensures RollDiff(WheelProbes(Some(h), Some(h), None, Some(h))) == -h / 2.0
    ensures var sr := SuspensionStep(t.suspensionRoll, yawRate);
            Conform(t, WheelProbes(Some(h), Some(h), None, Some(h)), true, true, yawRate, num)
            == Tilt(h + 0.05, t.pitch, num.atan2(-h / 2.0, 1.4) + sr, sr)
  {
    HeightsUnfold(WheelProbes(Some(h), Some(h), None, Some(h)));
  }

  /** The probes with every missing wheel read as ground at height 0. */
  function ZeroFilled(w: WheelProbes): WheelProbes
  {
    WheelProbes(Some(w.fl.GetOr(0.0)), Some(w.fr.GetOr(0.0)), Some(w.rl.GetOr(0.0)), Some(w.rr.GetOr(0.0)))
  }

  /**
   Whatever wheels are missing, the pitch and roll differences are those of
   four grounded wheels with the missing ones at height 0.
   */
  lemma MissingWheelReadsAsZero(w: WheelProbes)
    ensures PitchDiff(w) == PitchDiff(ZeroFilled(w))
    ensures RollDiff(w) == RollDiff(ZeroFilled(w))
  {
  }

  /** On level ground with all four wheels down, pitch and roll differences vanish and the height is ground + 0.05. */
  lemma LevelGroundIsLevel(t: Tilt, h: real, yawRate: real, num: Numerics)
    ensures Conform(t, WheelProbes(Some(h), Some(h), Some(h), Some(h)), true, true, yawRate, num).y == h + 0.05
    ensures PitchDiff(WheelProbes(Some(h), Some(h), Some(h), Some(h))) == 0.0
    ensures RollDiff(WheelProbes(Some(h), Some(h), Some(h), Some(h))) == 0.0
  {
    HeightsUnfold(WheelProbes(Some(h), Some(h), Some(h), Some(h)));
  }

  // ---------------------------------------------------------------------------
  // Wheel roll
  // ---------------------------------------------------------------------------

  /**
   The wheel roll angle: distance travelled over the tyre radius, reduced
   with JavaScript's `%` by 2π, so it keeps the sign of the travel.
   */
  function WheelRollAngle(travel: real): (a: real)
    ensures travel >= 0.0 ==> 0.0 <= a < TwoPi
    ensures travel <= 0.0 ==> -TwoPi < a <= 0.0
    ensures ((travel / 0.32 - a) / TwoPi).Floor as real == (travel / 0.32 - a) / TwoPi
  {
    JsRemTwoPi(travel / 0.32)
  }
}

=== FILE: control.dfy ===
/**
 The discrete controls around the simulation: which car is being driven,
 choosing the nearest car to enter, the F key that enters and leaves cars,
 the held-trigger shot limiter, and the frame limiter that gates `animate`.
 Distances use the library square root; the exit raycast and the car's
 right vector arrive as inputs.
 */
module Control {
  import opened Base
  import Player

  // ---------------------------------------------------------------------------
  // The driven car
  // ---------------------------------------------------------------------------

  /** `getActiveCar`: the car at the index when the index is in range, else nothing. */
  function ActiveCar<T>(activeCarIndex: int, cars: seq<T>): (r: Option<T>)
    ensures r.Some? <==> 0 <= activeCarIndex < |cars|
    ensures r.Some? ==> r.value == cars[activeCarIndex]
  {
    if 0 <= activeCarIndex < |cars| then Some(cars[activeCarIndex]) else None
  }

  // ---------------------------------------------------------------------------
  // Nearest car
  // ---------------------------------------------------------------------------

  /** How close the player must be (strictly) to enter a car. */
  const EnterCarDistance: real := 3.0

  /** An entry of the car list: whether its model finished loading, and its body position if it has one. */
  datatype CarEntry = CarEntry(loaded: bool, body: Option<Vec3>)

  /** `distanceTo` between the player and a car body. */
  function Dist(player: Vec3, body: Vec3, num: Numerics): real
  {
    num.sqrt(SqLen(Sub(player, body)))
  }

  /** A loaded car with a body whose distance is under the entry distance. */
  predicate InReach(player: Vec3, car: CarEntry, num: Numerics)
  {
    car.loaded && car.body.Some? && Dist(player, car.body.value, num) < EnterCarDistance
  }

  /** A loaded car with a body: the ones the scan measures. */
  predicate Measured(car: CarEntry)
  {
    car.loaded && car.body.Some?
  }

  /**
   The scan shared by the F key and the per-frame prompt: the closest car
   in reach, the first one on ties, or -1 when none is in reach.
   */
  method NearestCar(player: Vec3, cars: seq<CarEntry>, num: Numerics) returns (idx: int)
    ensures -1 <= idx < |cars|
    ensures idx == -1 <==> forall i :: 0 <= i < |cars| ==> !InReach(player, cars[i], num)
    ensures idx >= 0 ==>
              && InReach(player, cars[idx], num)
              && (forall i :: 0 <= i < |cars| && InReach(player, cars[i], num) ==>
                    Dist(player, cars[idx].body.value, num) <= Dist(player, cars[i].body.value, num))
              && (forall i :: 0 <= i < idx && InReach(player, cars[i], num) ==>
                    Dist(player, cars[idx].body.value, num) < Dist(player, cars[i].body.value, num))
  {
    var minDist := EnterCarDistance;
    idx := -1;
    var i := 0;
    while i < |cars|
      invariant 0 <= i <= |cars|
      invariant -1 <= idx < i
      invariant minDist <= EnterCarDistance
      invariant idx == -1 ==> minDist == EnterCarDistance
      invariant idx >= 0 ==> Measured(cars[idx]) && minDist == Dist(player, cars[idx].body.value, num)
      invariant idx >= 0 ==> minDist < EnterCarDistance
      invariant forall j :: 0 <= j < i && Measured(cars[j]) ==> minDist <= Dist(player, cars[j].body.value, num)
      invariant forall j :: 0 <= j < idx && Measured(cars[j]) ==> minDist < Dist(player, cars[j].body.value, num)
    {
      if cars[i].loaded && cars[i].body.Some? {
        var dist := Dist(player, cars[i].body.value, num);
        if dist < minDist {
          minDist := dist;
          idx := i;
        }
      }
      i := i + 1;
    }
  }

  // ---------------------------------------------------------------------------
  // Entering and leaving
  // ---------------------------------------------------------------------------

  /** The mode flag, the driven car's index (-1 when walking), and the player's position. */
  datatype Control = Control(isCarMode: bool, activeCarIndex: int, player: Vec3)

  /** Mode and index agree, and the index names a car of the list. */
  predicate Seated(c: Control, carCount: nat)
  {
    (c.isCarMode <==> c.activeCarIndex >= 0) && -1 <= c.activeCarIndex < carCount
  }

  /** The eye height after leaving a car: 1.6 over the exit probe's hit, else 1.6. */
  function ExitHeight(probe: GroundProbe): real
  {
    if probe.Hit? then probe.groundY + 1.6 else 1.6
  }

  /**
   The F key, given the scan's result `nearest`. Walking: enter the
   nearest car if there is one. Driving a car: walk again, placed 2 along
   the car's right vector at the exit height when the car has a body.
   */
  function ToggleCar(c: Control, nearest: int, cars: seq<CarEntry>, right: Vec3, exitProbe: GroundProbe): (r: Control)
    requires nearest < |cars|
    ensures !c.isCarMode && nearest >= 0 ==> r == c.(isCarMode := true, activeCarIndex := nearest)
    ensures !c.isCarMode && nearest < 0 ==> r == c
    ensures c.isCarMode && c.activeCarIndex >= 0 ==>
              && !r.isCarMode && r.activeCarIndex == -1
              && (c.activeCarIndex < |cars| && cars[c.activeCarIndex].body.Some? ==>
                    var exit := Add(cars[c.activeCarIndex].body.value, Scale(right, 2.0));
                    r.player == Vec3(exit.x, ExitHeight(exitProbe), exit.z))
              && (c.activeCarIndex >= |cars| || cars[c.activeCarIndex].body.None? ==> r.player == c.player)
    ensures c.isCarMode && c.activeCarIndex < 0 ==> r == c
    ensures Seated(c, |cars|) ==> Seated(r, |cars|)
  {
    if !c.isCarMode then
      if nearest >= 0 then c.(isCarMode := true, activeCarIndex := nearest) else c
    else if c.activeCarIndex >= 0 then
      var car := ActiveCar(c.activeCarIndex, cars);
      var placed :=
        if car.Some? && car.value.body.Some? then
          var exit := Add(car.value.body.value, Scale(right, 2.0));
          Vec3(exit.x, ExitHeight(exitProbe), exit.z)
        else c.player;
      Control(false, -1, placed)
    else c
  }

  /** The F key handler: scans for the nearest car only while walking. */
  method PressF(c: Control, cars: seq<CarEntry>, right: Vec3, exitProbe: GroundProbe, num: Numerics)
    returns (r: Control)
    ensures Seated(c, |cars|) ==> Seated(r, |cars|)
    ensures c.isCarMode ==> r == ToggleCar(c, -1, cars, right, exitProbe)
    ensures !c.isCarMode ==>
              (r.isCarMode <==> exists i :: 0 <= i < |cars| && InReach(c.player, cars[i], num))
    ensures !c.isCarMode && r.isCarMode ==>
              && 0 <= r.activeCarIndex < |cars|
              && InReach(c.player, cars[r.activeCarIndex], num)
              && forall i :: 0 <= i < |cars| && InReach(c.player, cars[i], num) ==>
                   Dist(c.player, cars[r.activeCarIndex].body.value, num) <= Dist(c.player, cars[i].body.value, num)
    ensures !c.isCarMode && r.isCarMode ==>
              forall i :: 0 <= i < r.activeCarIndex && InReach(c.player, cars[i], num) ==>
                Dist(c.player, cars[r.activeCarIndex].body.value, num) < Dist(c.player, cars[i].body.value, num)
    ensures !c.isCarMode ==> r == c.(isCarMode := r.isCarMode, activeCarIndex := r.activeCarIndex)
    ensures !c.isCarMode && !r.isCarMode ==> r == c
  {
    if !c.isCarMode {
      var nearest := NearestCar(c.player, cars, num);
      r := ToggleCar(c, nearest, cars, right, exitProbe);
    } else {
      r := ToggleCar(c, -1, cars, right, exitProbe);
    }
  }

  /**
   Entering a car and pressing F again gives back walking mode with no car,
   the player standing beside the car at the exit height.
   */
  lemma EnterThenLeave(c: Control, k: nat, cars: seq<CarEntry>, right: Vec3, exitProbe: GroundProbe)
    requires !c.isCarMode && k < |cars| && cars[k].body.Some?
    ensures var driving := ToggleCar(c, k, cars, right, exitProbe);
            var back := ToggleCar(driving, -1, cars, right, exitProbe);
            && driving.isCarMode && driving.activeCarIndex == k
            && !back.isCarMode && back.activeCarIndex == -1
            && back.player.y == ExitHeight(exitProbe)
            && back.player.x == cars[k].body.value.x + right.x * 2.0
            && back.player.z == cars[k].body.value.z + right.z * 2.0
  {
  }

  /**
   The exit height is the jump's landing height, so a player who leaves a
   car over ground stands where Space may start a jump.
   */
  lemma LeavingStandsReadyToJump(exitProbe: GroundProbe, feet: seq<Option<real>>)
    ensures ExitHeight(exitProbe) == Player.LandingHeight(exitProbe)
    ensures exitProbe.Hit? && Some(exitProbe.groundY) in feet ==>
              Player.MayJump(ExitHeight(exitProbe), true, feet)
    ensures exitProbe.NoGroundMeshes? ==> Player.MayJump(ExitHeight(exitProbe), false, feet)
  {
    if exitProbe.Hit? && Some(exitProbe.groundY) in feet {
      var i :| 0 <= i < |feet| && feet[i] == Some(exitProbe.groundY);
      assert Player.StandsOn(ExitHeight(exitProbe), feet[i]);
    }
  }

  // ---------------------------------------------------------------------------
  // Shot rate limiter
  // ---------------------------------------------------------------------------

  /** Milliseconds between shots while the trigger is held. */
  const ShootingRateLimit: int := 100

  /** Whether the trigger is held, and the wall-clock millisecond of the last shot. */
  datatype Gun = Gun(isShooting: bool, lastShotTime: int)

  /** Left mouse down while walking with the gun ready: hold the trigger and stamp the time. */
  function MouseDown(g: Gun, button: int, isCarMode: bool, gunReady: bool, now: int): (r: Gun)
    ensures button == 0 && !isCarMode && gunReady ==> r == Gun(true, now)
    ensures !(button == 0 && !isCarMode && gunReady) ==> r == g
  {
    if button == 0 && !isCarMode && gunReady then Gun(true, now) else g
  }

  /** Left mouse up releases the trigger; the stamp stays. */
  function MouseUp(g: Gun, button: int): (r: Gun)
    ensures r.lastShotTime == g.lastShotTime
    ensures r.isShooting == (g.isShooting && button != 0)
  {
    if button == 0 then g.(isShooting := false) else g
  }

  /** The gun after `shoot`, and whether a shot left it. */
  datatype Shot = Shot(gun: Gun, fired: bool)

  /** `shoot`: fires when the gun is ready and at least 100 ms have passed since the stamp. */
  function Shoot(g: Gun, gunReady: bool, now: int): (s: Shot)
    ensures s.fired <==> gunReady && now - g.lastShotTime >= ShootingRateLimit
    ensures s.fired ==> s.gun == g.(lastShotTime := now)
    ensures !s.fired ==> s.gun == g
  {
    if !gunReady then Shot(g, false)
    else if now - g.lastShotTime < ShootingRateLimit then Shot(g, false)
    else Shot(g.(lastShotTime := now), true)
  }

  /**
   The mouse-down stamp holds the first shot back: pressed at `t`, the
   trigger first fires on a frame at `t + 100` or later.
   */
  lemma FirstShotHeldBack(g: Gun, t: int, now: int)
    ensures Shoot(MouseDown(g, 0, false, true, t), true, now).fired <==> now >= t + ShootingRateLimit
  {
  }

  /** The index of the first frame time at least 100 ms after `lastShotTime`, or `|times|` if none is. */
  function FirstDue(lastShotTime: int, times: seq<int>): (k: nat)
    ensures k <= |times|
    ensures k < |times| ==> times[k] - lastShotTime >= ShootingRateLimit
    ensures forall j :: 0 <= j < k ==> times[j] - lastShotTime < ShootingRateLimit
  {
    if |times| == 0 then 0
    else if times[0] - lastShotTime >= ShootingRateLimit then 0
    else 1 + FirstDue(lastShotTime, times[1..])
  }

  /** The times at which shots leave a ready gun held down over frames at `times`. */
  function FiredTimes(lastShotTime: int, times: seq<int>): (r: seq<int>)
    ensures |r| <= |times|
    ensures forall i :: 0 <= i < |r| ==> r[i] in times
    ensures |r| > 0 ==> r[0] - lastShotTime >= ShootingRateLimit
    ensures |r| > 0 <==> exists i :: 0 <= i < |times| && times[i] - lastShotTime >= ShootingRateLimit
    ensures |r| > 0 ==> r[0] == times[FirstDue(lastShotTime, times)]
    ensures forall i :: 0 < i < |r| ==> r[i] - r[i - 1] >= ShootingRateLimit
    decreases |times|
  {
    if |times| == 0 then []
    else
      var shot := Shoot(Gun(true, lastShotTime), true, times[0]);
      if shot.fired then [times[0]] + FiredTimes(times[0], times[1..])
      else FiredTimes(lastShotTime, times[1..])
  }

  /** Held fire never beats the limit: n shots span at least 100·(n - 1) ms. */
  lemma {:induction false} FiredSpread(r: seq<int>)
    requires forall i :: 0 < i < |r| ==> r[i] - r[i - 1] >= ShootingRateLimit
    ensures |r| > 0 ==> r[|r| - 1] - r[0] >= ShootingRateLimit * (|r| - 1)
    decreases |r|
  {
    if |r| > 1 {
      FiredSpread(r[..|r| - 1]);
      assert r[..|r| - 1][|r| - 2] == r[|r| - 2];
    }
  }

  // ---------------------------------------------------------------------------
  // Frame limiter
  // ---------------------------------------------------------------------------

  /** The wall-clock budget of one simulated frame at 60 frames per second. */
  const FrameDuration: real := 1000.0 / 60.0

  /** The timestamp of the last callback and the time banked toward the next frame. */
  datatype Limiter = Limiter(lastFrameTime: real, accumulated: real)

  /** The limiter after a callback, and whether the frame body runs. */
  datatype Gate = Gate(limiter: Limiter, runs: bool)

  /**
   One `animate` callback at `now`: bank the elapsed time; run and spend
   one frame's budget when a whole frame is banked, else skip.
   */
  function FrameGate(l: Limiter, now: real): (g: Gate)
    ensures g.limiter.lastFrameTime == now
    ensures g.runs <==> l.accumulated + (now - l.lastFrameTime) >= FrameDuration
    ensures g.limiter.accumulated + (if g.runs then FrameDuration else 0.0)
            == l.accumulated + (now - l.lastFrameTime)
    ensures !g.runs ==> g.limiter.accumulated < FrameDuration
  {
    var banked := l.accumulated + (now - l.lastFrameTime);
    if banked < FrameDuration then Gate(Limiter(now, banked), false)
    else Gate(Limiter(now, banked - FrameDuration), true)
  }

  /** The limiter after callbacks at `times`, and how many frames ran. */
  datatype Run = Run(limiter: Limiter, frames: nat)

  function FrameRun(l: Limiter, times: seq<real>): (r: Run)
    ensures r.frames <= |times|
    decreases |times|
  {
    if |times| == 0 then Run(l, 0)
    else
      var g := FrameGate(l, times[0]);
      var rest := FrameRun(g.limiter, times[1..]);
      Run(rest.limiter, rest.frames + (if g.runs then 1 else 0))
  }

  /** Callback times that never go backwards from `start`. */
  predicate Monotone(start: real, times: seq<real>)
  {
    (|times| > 0 ==> start <= times[0])
    && forall i :: 0 < i < |times| ==> times[i - 1] <= times[i]
  }

  /**
   The limiter keeps time: the frames run plus the time still banked
   account exactly for the time banked at the start and the time elapsed;
   with time never going backwards the bank stays non-negative, so the
   simulation never runs ahead of the wall clock.
   */
  lemma {:induction false} FrameRunKeepsTime(l: Limiter, times: seq<real>)
    ensures var r := FrameRun(l, times);
            r.limiter.accumulated + (r.frames as real) * FrameDuration
            == l.accumulated + (r.limiter.lastFrameTime - l.lastFrameTime)
    ensures l.accumulated >= 0.0 && Monotone(l.lastFrameTime, times) ==>
              var r := FrameRun(l, times);
              r.limiter.accumulated >= 0.0
              && (r.frames as real) * FrameDuration <= l.accumulated + (r.limiter.lastFrameTime - l.lastFrameTime)
    decreases |times|
  {
    if |times| > 0 {
      var g := FrameGate(l, times[0]);
      var rest := FrameRun(g.limiter, times[1..]);
      FrameRunKeepsTime(g.limiter, times[1..]);
      var k := if g.runs then 1 else 0;
      assert ((rest.frames + k) as real) * FrameDuration
             == (rest.frames as real) * FrameDuration + (k as real) * FrameDuration;
      if l.accumulated >= 0.0 && Monotone(l.lastFrameTime, times) {
        assert g.limiter.accumulated >= 0.0;
        assert Monotone(g.limiter.lastFrameTime, times[1..]) by {
          var t := times[1..];
          assert forall i :: 0 < i < |t| ==> t[i - 1] == times[i] && t[i] == times[i + 1];
        }
      }
    }
  }
}

=== FILE: drivetrain.dfy ===
/**
 The longitudinal half of the occupied-car step in `animate`: the
 reverse/brake input micro-machine, steering smoothing, wheel and engine
 RPM, the automatic gearbox, the torque curve, drive and braking forces,
 and the per-tick velocity update with its reverse-speed cap.
 */
module Drivetrain {
  import opened Base

  const Mass: real := 1250.0
  const MaxTorque: real := 228.0
  const WheelBase: real := 2.6
  const TireRadius: real := 0.32
  const YawInertia: real := 2500.0
  const GearRatios: seq<real> := [3.635, 2.188, 1.562, 1.194, 1.000, 0.888]
  const ReverseRatio: real := 3.5
  const FinalDrive: real := 4.1
  const GripFront: real := 1.6
  const GripRear: real := 1.4
  /** 70% and 40% of the 7000 RPM redline. */
  const ShiftUpRPM: real := 4900.0
  const ShiftDownRPM: real := 2800.0
  const IdleRPM: real := 1000.0
  const MaxBackupSpeed: real := 2.78

  /** The keys the car step polls. */
  datatype Keys = Keys(forward: bool, backward: bool, left: bool, right: bool, brake: bool)

  /** Throttle, brake and the backing-up flag after the input stage. */
  datatype Pedals = Pedals(throttle: real, brake: real, isBackingUp: bool)

  // ---------------------------------------------------------------------------
  // Input micro-machine
  // ---------------------------------------------------------------------------

  /**
   Maps the held keys to pedals. Holding S brakes while the car still moves
   faster than 0.5, engages reverse only once it is nearly stopped, and
   keeps reversing while S stays held; releasing S ends reversing.
   */
  function ReadPedals(keys: Keys, isBackingUp: bool, speed: real): (p: Pedals)
    ensures p.throttle == -1.0 || p.throttle == 0.0 || p.throttle == 1.0
    ensures p.brake == 0.0 || p.brake == 1.0
    ensures p.throttle < 0.0 <==> p.isBackingUp
    ensures p.isBackingUp ==> p.brake == 0.0
    ensures !keys.backward ==>
              !p.isBackingUp
              && (p.throttle == 1.0 <==> keys.forward)
              && (p.brake == 1.0 <==> keys.brake)
    ensures keys.backward && !isBackingUp && speed > 0.5 ==>
              p.brake == 1.0 && p.throttle == 0.0 && !p.isBackingUp
    ensures p.isBackingUp <==> keys.backward && (isBackingUp || speed <= 0.5)
    ensures keys.backward && !isBackingUp && speed <= 0.5 ==>
              p.isBackingUp && p.throttle == -1.0 && p.brake == 0.0
  {
    if keys.backward then
      if !isBackingUp then
        if speed > 0.5 then Pedals(0.0, 1.0, false)
        else Pedals(-1.0, 0.0, true)
      else
        Pedals(-1.0, 0.0, true)
    else
      Pedals(if keys.forward then 1.0 else 0.0, if keys.brake then 1.0 else 0.0, false)
  }

  /** The pedals after holding S through one tick per entry of `speeds`. */
  function HoldReverse(isBackingUp: bool, speeds: seq<real>, forward: bool, brake: bool): Pedals
    decreases |speeds|
  {
    var keys := Keys(forward, true, false, false, brake);
    if |speeds| == 0 then Pedals(0.0, 0.0, isBackingUp)
    else if |speeds| == 1 then ReadPedals(keys, isBackingUp, speeds[0])
    else HoldReverse(ReadPedals(keys, isBackingUp, speeds[0]).isBackingUp, speeds[1..], forward, brake)
  }

  /**
   Once reversing is engaged, holding S keeps it engaged whatever speeds
   the following ticks see.
   */
  lemma {:induction false} ReverseIsSticky(speeds: seq<real>, forward: bool, brake: bool)
    requires |speeds| > 0
    ensures HoldReverse(true, speeds, forward, brake) == Pedals(-1.0, 0.0, true)
    decreases |speeds|
  {
    if |speeds| > 1 {
      ReverseIsSticky(speeds[1..], forward, brake);
    }
  }

  /**
   Holding S from any state reaches reverse throttle only if some tick saw
   a speed of at most 0.5.
   */
  lemma {:induction false} ReverseNeedsNearStop(isBackingUp: bool, speeds: seq<real>, forward: bool, brake: bool)
    requires |speeds| > 0
    requires !isBackingUp
    requires forall i :: 0 <= i < |speeds| ==> speeds[i] > 0.5
    ensures HoldReverse(isBackingUp, speeds, forward, brake) == Pedals(0.0, 1.0, false)
    decreases |speeds|
  {
    if |speeds| > 1 {
      ReverseNeedsNearStop(false, speeds[1..], forward, brake);
    }
  }

  // ---------------------------------------------------------------------------
  // Steering
  // ---------------------------------------------------------------------------

  /** The steering target from the arrow keys: left wins alone, right alone, else 0. */
  function SteerTarget(left: bool, right: bool): (t: real)
    ensures t == -1.0 || t == 0.0 || t == 1.0
    ensures t == 1.0 <==> left && !right
    ensures t == -1.0 <==> right && !left
  {
    if left && !right then 1.0
    else if right && !left then -1.0
    else 0.0
  }

  /** One smoothing step: closes a quarter of the gap to the target. */
  function SmoothSteer(steer: real, target: real): (r: real)
    ensures Abs(r - target) == 0.75 * Abs(steer - target)
    ensures steer <= r <= target || target <= r <= steer
    ensures -1.0 <= steer <= 1.0 && -1.0 <= target <= 1.0 ==> -1.0 <= r <= 1.0
  {
    steer + (target - steer) * 0.25
  }

  /** The steering value after `n` ticks with the same target held. */
  function SmoothSteerN(steer: real, target: real, n: nat): real
    decreases n
  {
    if n == 0 then steer else SmoothSteerN(SmoothSteer(steer, target), target, n - 1)
  }

  /** Holding a key for `n` ticks leaves 0.75^n of the initial gap. */
  lemma {:induction false} SteerGapDecays(steer: real, target: real, n: nat)
    ensures Abs(SmoothSteerN(steer, target, n) - target) == Pow(0.75, n) * Abs(steer - target)
    decreases n
  {
    if n > 0 {
      var s1 := SmoothSteer(steer, target);
      SteerGapDecays(s1, target, n - 1);
      PowShift(0.75, n - 1);
      assert Pow(0.75, n - 1) * (0.75 * Abs(steer - target)) == Pow(0.75, n) * Abs(steer - target);
    }
  }

  /** The largest steering angle at a speed: 0.7 below 10, easing to 0.3 at 60 and above. */
  function SteerMax(speed: real): (r: real)
    ensures 0.3 <= r <= 0.7
    ensures speed < 10.0 ==> r == 0.7
    ensures speed >= 60.0 ==> r == 0.3
  {
    if speed < 10.0 then 0.7
    else 0.3 + 0.4 * Max(0.0, 1.0 - (speed - 10.0) / 50.0)
  }

  /** Faster never allows sharper steering. */
  lemma SteerMaxNonIncreasing(a: real, b: real)
    requires a <= b
    ensures SteerMax(b) <= SteerMax(a)
  {
  }

  /** The physical steering angle; reversed when the car rolls backwards. */
  function SteerAngle(steer: real, steerMax: real, vx: real): (r: real)
    requires steerMax >= 0.0
    ensures Abs(r) == Abs(steer) * steerMax
    ensures vx >= 0.0 ==> r * steer >= 0.0
    ensures vx < 0.0 ==> r * steer <= 0.0
  {
    var a := steer * steerMax;
    assert Abs(a) == Abs(steer) * steerMax;
    assert a * steer >= 0.0;
    if vx < 0.0 then -a else a
  }

  // ---------------------------------------------------------------------------
  // Wheel and engine speed, gearbox
  // ---------------------------------------------------------------------------

  /** Wheel revolutions per minute from the longitudinal speed. */
  function WheelRPM(vx: real): (r: real)
    ensures r >= 0.0
    ensures r * (TireRadius * 2.0 * Pi) == Abs(vx) * 60.0
  {
    Abs(vx) / (TireRadius * 2.0 * Pi) * 60.0
  }

  /** Rolling faster forwards or backwards turns the wheels faster. */
  lemma WheelRPMMonotone(a: real, b: real)
    requires Abs(a) <= Abs(b)
    ensures WheelRPM(a) <= WheelRPM(b)
    ensures WheelRPM(a) == WheelRPM(-a)
  {
  }

  /** The table index of a gear, clamped to the six forward gears. */
  function GearIndex(gear: int): (i: nat)
    ensures i < |GearRatios|
    ensures 1 <= gear <= 6 ==> i == gear - 1
  {
    if gear - 1 < 0 then 0 else if gear - 1 > 5 then 5 else gear - 1
  }

  /** The gearbox ratio in use: the reverse ratio while the throttle is negative. */
  function GearRatio(throttle: real, gear: int): (r: real)
    ensures 0.888 <= r <= 3.635
    ensures throttle < 0.0 ==> r == ReverseRatio
    ensures throttle >= 0.0 && 1 <= gear <= 6 ==> r == GearRatios[gear - 1]
  {
    if throttle < 0.0 then ReverseRatio else GearRatios[GearIndex(gear)]
  }

  /** A higher forward gear never has a larger ratio. */
  lemma GearRatioNonIncreasing(g: int, h: int)
    requires 1 <= g <= h <= 6
    ensures GearRatio(0.0, h) <= GearRatio(0.0, g)
  {
  }

  /** Engine RPM from wheel RPM through the gearbox, floored at idle. */
  function EngineRPM(wheelRPM: real, ratio: real): (r: real)
    ensures r >= IdleRPM
    ensures r >= wheelRPM * ratio * FinalDrive
    ensures r == IdleRPM || r == wheelRPM * ratio * FinalDrive
  {
    Max(IdleRPM, wheelRPM * ratio * FinalDrive)
  }

  /** A standing car idles at exactly 1000 RPM in every gear. */
  lemma IdleAtStandstill(throttle: real, gear: int)
    ensures EngineRPM(WheelRPM(0.0), GearRatio(throttle, gear)) == IdleRPM
  {
  }

  /**
   The automatic gearbox: at most one gear per tick, up above 4900 RPM
   (not past 6th), else down below 2800 RPM (not below 1st); pinned to 1st
   while the throttle is negative.
   */
  function ShiftGear(throttle: real, rpm: real, gear: int): (g: int)
    ensures throttle < 0.0 ==> g == 1
    ensures throttle >= 0.0 ==> gear - 1 <= g <= gear + 1
    ensures throttle >= 0.0 ==> (g == gear + 1 <==> rpm > ShiftUpRPM && gear < 6)
    ensures throttle >= 0.0 ==>
              (g == gear - 1 <==> !(rpm > ShiftUpRPM && gear < 6) && rpm < ShiftDownRPM && gear > 1)
    ensures 1 <= gear <= 6 ==> 1 <= g <= 6
  {
    if throttle >= 0.0 then
      if rpm > ShiftUpRPM && gear < 6 then gear + 1
      else if rpm < ShiftDownRPM && gear > 1 then gear - 1
      else gear
    else 1
  }

  /** The gears visited over a run of forward-throttle ticks with the given engine RPMs. */
  function GearTrace(gear: int, rpms: seq<real>): (t: seq<int>)
    ensures |t| == |rpms| + 1
    ensures t[0] == gear
    decreases |rpms|
  {
    if |rpms| == 0 then [gear]
    else [gear] + GearTrace(ShiftGear(0.0, rpms[0], gear), rpms[1..])
  }

  /**
   Over any run of forward-throttle ticks the gear stays within 1..6 and
   moves by at most one per tick.
   */
  lemma {:induction false} GearTraceStaysInRange(gear: int, rpms: seq<real>)
    requires 1 <= gear <= 6
    ensures forall i :: 0 <= i < |GearTrace(gear, rpms)| ==> 1 <= GearTrace(gear, rpms)[i] <= 6
    ensures forall i :: 0 <= i < |rpms| ==>
              -1 <= GearTrace(gear, rpms)[i + 1] - GearTrace(gear, rpms)[i] <= 1
    decreases |rpms|
  {
    if |rpms| > 0 {
      var g1 := ShiftGear(0.0, rpms[0], gear);
      GearTraceStaysInRange(g1, rpms[1..]);
      var t := GearTrace(gear, rpms);
      var rest := GearTrace(g1, rpms[1..]);
      assert t == [gear] + rest;
      forall i | 0 <= i < |rpms|
        ensures -1 <= t[i + 1] - t[i] <= 1
      {
        if i > 0 {
          assert t[i + 1] == rest[i] && t[i] == rest[i - 1];
        }
      }
    }
  }

  // ---------------------------------------------------------------------------
  // Torque and forces
  // ---------------------------------------------------------------------------

  /**
   The torque-curve factor: flat 1.0 in reverse; forwards it ramps 0.85 to
   1.0 over 1000..1500 RPM, holds 1.0 up to 6000 and fades toward 0.7 beyond.
   */
  function TorqueCurve(throttle: real, rpm: real): (c: real)
    ensures 0.7 <= c <= 1.0
    ensures throttle < 0.0 ==> c == 1.0
    ensures 1500.0 <= rpm < 6000.0 ==> c == 1.0
  {
    var n := Max(1000.0, Abs(rpm));
    if throttle < 0.0 then 1.0
    else if n < 1500.0 then 0.85 + (n - 1000.0) / 500.0 * 0.15
    else if n < 6000.0 then 1.0
    else Max(0.7, 1.0 - (n - 6000.0) / 1000.0 * 0.15)
  }

  /** Forwards, the curve rises up to 1500 RPM and never rises after it. */
  lemma TorqueCurveUnimodal(a: real, b: real)
    requires 1000.0 <= a <= b
    ensures b <= 1500.0 ==> TorqueCurve(1.0, a) <= TorqueCurve(1.0, b)
    ensures 1500.0 <= a ==> TorqueCurve(1.0, b) <= TorqueCurve(1.0, a)
  {
  }

  /** Engine torque in N·m; none without throttle. */
  function EngineTorque(throttle: real, rpm: real): (t: real)
    ensures throttle == 0.0 ==> t == 0.0
    ensures throttle > 0.0 ==> t > 0.0
    ensures throttle < 0.0 ==> t < 0.0
  {
    if throttle != 0.0 then
      var c := TorqueCurve(throttle, rpm);
      assert MaxTorque * c > 0.0;
      MaxTorque * c * throttle
    else 0.0
  }

  /**
   The tractive force at the tyres from the engine torque through the
   gearbox (ratio of `gear`, taken before this tick's shift), clamped to
   [-25000, 25000] in reverse and [-4000, 16000] otherwise.
   */
  function DriveForce(throttle: real, rpm: real, gear: int): (f: real)
    ensures throttle < 0.0 ==> -25000.0 <= f < 0.0
    ensures throttle >= 0.0 ==> 0.0 <= f <= 16000.0
    ensures throttle == 0.0 ==> f == 0.0
    ensures throttle > 0.0 ==> f > 0.0
  {
    var ratio := GearRatio(throttle, gear);
    var torque := EngineTorque(throttle, rpm);
    var wheelTorque := torque * (ratio * FinalDrive);
    assert throttle > 0.0 ==> wheelTorque > 0.0;
    assert throttle < 0.0 ==> wheelTorque < 0.0;
    var raw := wheelTorque / TireRadius;
    if throttle < 0.0 then Max(Min(raw, 25000.0), -25000.0)
    else Max(Min(raw, 16000.0), -4000.0)
  }

  /** Full reverse throttle always pushes with exactly 10224.375 N: the ±25000 clamp never binds. */
  lemma ReverseDriveForceIsConstant(rpm: real, gear: int)
    ensures DriveForce(-1.0, rpm, gear) == -10224.375
  {
    assert TorqueCurve(-1.0, rpm) == 1.0;
    assert EngineTorque(-1.0, rpm) == -228.0;
  }

  /** Full forward throttle never reaches the 16000 N clamp: at most 10618.74375 N. */
  lemma ForwardDriveForceBelowClamp(rpm: real, gear: int)
    ensures 0.0 < DriveForce(1.0, rpm, gear) <= 10618.74375
  {
    var c := TorqueCurve(1.0, rpm);
    var ratio := GearRatio(1.0, gear);
    assert EngineTorque(1.0, rpm) == 228.0 * c;
    assert 228.0 * c * (ratio * FinalDrive) <= 228.0 * (ratio * FinalDrive);
    assert 228.0 * (ratio * FinalDrive) <= 228.0 * (3.635 * FinalDrive);
  }

  /** The tyre slip angle after saturation at ±0.35 rad. */
  function ClampSlip(slip: real): (r: real)
    ensures -0.35 <= r <= 0.35
    ensures -0.35 <= slip <= 0.35 ==> r == slip
    ensures slip > 0.35 ==> r == 0.35
    ensures slip < -0.35 ==> r == -0.35
  {
    Max(-0.35, Min(0.35, slip))
  }

  /** Front and rear lateral tyre forces of the bicycle model. */
  datatype TyreForces = TyreForces(front: real, rear: real)

  /** Slip angles of the front and rear axle, before saturation. */
  datatype AxleSlip = AxleSlip(front: real, rear: real)

  /**
   The slip angle of each axle: the angle of the axle's velocity (the
   forward speed in the denominator floored at 0.1), less the steering
   angle at the front.
   */
  function SlipAngles(num: Numerics, vx: real, vy: real, yawRate: real, steerAngle: real): AxleSlip
  {
    var denom := Max(Abs(vx), 0.1);
    AxleSlip(num.atan2(vy + WheelBase / 2.0 * yawRate, denom) - steerAngle,
             num.atan2(vy - WheelBase / 2.0 * yawRate, denom))
  }

  /** Each axle's slip angle, saturated, mapped through `-sin(slip) * grip * 8000`. */
  function TyreLateral(num: Numerics, vx: real, vy: real, yawRate: real, steerAngle: real): TyreForces
  {
    var slip := SlipAngles(num, vx, vy, yawRate, steerAngle);
    TyreForces(-num.sin(ClampSlip(slip.front)) * GripFront * 8000.0,
               -num.sin(ClampSlip(slip.rear)) * GripRear * 8000.0)
  }

  /**
   With a sine no larger than its argument, the saturation caps each
   force at 0.35 * grip * 8000: 4480 at the front, 3920 at the rear.
   */
  lemma TyreForcesBounded(num: Numerics, vx: real, vy: real, yawRate: real, steerAngle: real)
    requires forall x :: Abs(num.sin(x)) <= Abs(x)
    ensures var t := TyreLateral(num, vx, vy, yawRate, steerAngle);
            Abs(t.front) <= 4480.0 && Abs(t.rear) <= 3920.0
  {
    var slip := SlipAngles(num, vx, vy, yawRate, steerAngle);
    ForceWithinGrip(num, ClampSlip(slip.front), GripFront);
    ForceWithinGrip(num, ClampSlip(slip.rear), GripRear);
  }

  lemma ForceWithinGrip(num: Numerics, c: real, grip: real)
    requires forall x :: Abs(num.sin(x)) <= Abs(x)
    requires -0.35 <= c <= 0.35 && grip > 0.0
    ensures Abs(-num.sin(c) * grip * 8000.0) <= 0.35 * grip * 8000.0
  {
    var k := grip * 8000.0;
    assert Abs(num.sin(c)) <= 0.35;
    assert -num.sin(c) * grip * 8000.0 == -num.sin(c) * k;
    assert Abs(-num.sin(c) * k) == Abs(num.sin(c)) * k;
  }

  /**
   With a sine that has the sign of its argument near zero, each force
   pushes against its axle's slip: restoring, never amplifying.
   */
  lemma TyreForcesOpposeSlip(num: Numerics, vx: real, vy: real, yawRate: real, steerAngle: real)
    requires forall x :: -0.35 <= x <= 0.35 ==> x * num.sin(x) >= 0.0
    ensures var slip := SlipAngles(num, vx, vy, yawRate, steerAngle);
            var t := TyreLateral(num, vx, vy, yawRate, steerAngle);
            t.front * slip.front <= 0.0 && t.rear * slip.rear <= 0.0
  {
    var slip := SlipAngles(num, vx, vy, yawRate, steerAngle);
    ForceOpposes(num, slip.front, GripFront);
    ForceOpposes(num, slip.rear, GripRear);
  }

  lemma ForceOpposes(num: Numerics, slip: real, grip: real)
    requires forall x :: -0.35 <= x <= 0.35 ==> x * num.sin(x) >= 0.0
    requires grip > 0.0
    ensures (-num.sin(ClampSlip(slip)) * grip * 8000.0) * slip <= 0.0
  {
    var c := ClampSlip(slip);
    var sn := num.sin(c);
    assert c * sn >= 0.0;
    // the clamp keeps the sign of the slip, so sin(c) has it too
    if slip > 0.0 {
      assert sn >= 0.0;
      MulNonNeg(sn * grip * 8000.0, slip);
    } else if slip < 0.0 {
      assert sn <= 0.0;
      MulNonNeg(-sn * grip * 8000.0, -slip);
    }
  }

  /** With no sideways motion, no spin and no steering, neither axle slips. */
  lemma StraightRunNoTyreForce(num: Numerics, vx: real)
    requires forall d :: d > 0.0 ==> num.atan2(0.0, d) == 0.0
    requires num.sin(0.0) == 0.0
    ensures TyreLateral(num, vx, 0.0, 0.0, 0.0) == TyreForces(0.0, 0.0)
  {
    var slip := SlipAngles(num, vx, 0.0, 0.0, 0.0);
    assert Max(Abs(vx), 0.1) > 0.0;
    assert slip == AxleSlip(0.0, 0.0);
  }

  /**
   Braking force: only with the brake on and speed above 0.1; then it
   opposes `vx` with magnitude `min(20000, 3000|vx|)`.
   */
  function BrakingForce(brake: real, speed: real, vx: real): (f: real)
    ensures !(brake > 0.0 && speed > 0.1) ==> f == 0.0
    ensures brake > 0.0 && speed > 0.1 ==> Abs(f) == Min(20000.0, 3000.0 * Abs(vx))
    ensures f * vx <= 0.0
    ensures Abs(f) <= 20000.0
    ensures vx != 0.0 && brake > 0.0 && speed > 0.1 ==> f != 0.0
  {
    if brake > 0.0 && speed > 0.1 then
      var m := Min(20000.0, Abs(vx) * 3000.0);
      var sgn := Sign(vx);
      assert m >= 0.0;
      assert (-sgn * m) * vx == -(m * Abs(vx));
      -sgn * m
    else 0.0
  }

  // ---------------------------------------------------------------------------
  // Integration
  // ---------------------------------------------------------------------------

  /** The per-tick longitudinal friction factor (not scaled by the frame time). */
  function LongitudinalDecay(throttle: real): (k: real)
    ensures 0.999 < k < 1.0
    ensures throttle < 0.0 ==> k == 0.9999
    ensures throttle >= 0.0 ==> k == 0.9992
  {
    if throttle < 0.0 then 0.9999 else 0.9992
  }

  /**
   Integrates the longitudinal force, applies the per-tick friction, then
   caps reversing speed from below at -2.78 while the throttle is negative.
   */
  function Longitudinal(vx: real, forceX: real, throttle: real, delta: real): (r: real)
    ensures throttle < 0.0 ==> r >= -MaxBackupSpeed
    ensures throttle < 0.0 ==> r == Max((vx + forceX / Mass * delta) * LongitudinalDecay(throttle), -MaxBackupSpeed)
    ensures throttle >= 0.0 ==> r == (vx + forceX / Mass * delta) * LongitudinalDecay(throttle)
  {
    var v := (vx + forceX / Mass * delta) * LongitudinalDecay(throttle);
    if throttle < 0.0 && v < -MaxBackupSpeed then -MaxBackupSpeed else v
  }

  /** The reverse cap bounds `vx` from below only: a fast forward roll survives a reverse tick. */
  lemma ReverseCapIsOneSided()
    ensures Longitudinal(10.0, 0.0, -1.0, 0.016) == 9.999
    ensures Longitudinal(10.0, 0.0, -1.0, 0.016) > MaxBackupSpeed
  {
  }

  /** Friction is applied per tick: without force, the result does not depend on the frame time. */
  lemma LongitudinalDecayIsPerTick(vx: real, throttle: real, d1: real, d2: real)
    ensures Longitudinal(vx, 0.0, throttle, d1) == Longitudinal(vx, 0.0, throttle, d2)
  {
  }

  /** Lateral slip speed: integrated force, then 3% decay per tick. */
  function Lateral(vy: real, forceY: real, delta: real): (r: real)
    ensures forceY == 0.0 ==> Abs(r) == 0.97 * Abs(vy) && r * vy >= 0.0
  {
    (vy + forceY / Mass * delta) * 0.97
  }

  /** Yaw rate and yaw after applying the tyre torque about the vertical axis. */
  datatype Yaw = Yaw(yaw: real, yawRate: real)

  function YawStep(yaw: real, yawRate: real, torque: real, delta: real): (r: Yaw)
    ensures torque == 0.0 ==> Abs(r.yawRate) == 0.97 * Abs(yawRate) && r.yawRate * yawRate >= 0.0
    ensures r.yaw - yaw == r.yawRate * delta
  {
    var rate := (yawRate + torque / YawInertia * delta) * 0.97;
    Yaw(yaw + rate * delta, rate)
  }
}

=== FILE: player.dfy ===
/**
 The walking player's vertical motion: whether Space may start a jump
 (five foot probes), the per-frame jump integration and landing, and the
 easing of the eye height toward the lowest probed ground while not
 jumping. Raycast results arrive as inputs; walking itself is not modelled.
 */
module Player {
  import opened Base

  /** Per-frame gravity on the vertical speed. */
  const Gravity: real := -0.0035
  /** Extra per-frame lift during the first frames of a jump. */
  const JumpAccel: real := 0.008
  /** How many frames the lift lasts. */
  const JumpDuration: nat := 20
  /** Eye height over the ground, and the fixed floor height used without ground. */
  const GroundHeight: real := 1.6

  /** The vertical part of the walking player: eye height, speed, and the jump counters. */
  datatype Walker = Walker(y: real, vy: real, isJumping: bool, jumpFrame: nat)

  // ---------------------------------------------------------------------------
  // Jump eligibility
  // ---------------------------------------------------------------------------

  /** A foot probe hit with the eye within 0.2 of standing height above it. */
  predicate StandsOn(y: real, hit: Option<real>)
  {
    hit.Some? && Abs(y - (hit.value + GroundHeight)) <= 0.2
  }

  /**
   Whether Space may start a jump: with ground meshes, some foot probe
   finds the eye at standing height; without any, the eye is within 0.1 of
   the fixed floor height.
   */
  predicate MayJump(y: real, haveGround: bool, probes: seq<Option<real>>)
  {
    if haveGround then exists i :: 0 <= i < |probes| && StandsOn(y, probes[i])
    else Abs(y - GroundHeight) < 0.1
  }

  /** The probe loop of the Space handler, stopping at the first probe that qualifies. */
  method CanJump(y: real, haveGround: bool, probes: seq<Option<real>>) returns (ok: bool)
    ensures ok <==> MayJump(y, haveGround, probes)
  {
    ok := false;
    if haveGround {
      var i := 0;
      while i < |probes|
        invariant 0 <= i <= |probes|
        invariant !ok
        invariant forall j :: 0 <= j < i ==> !StandsOn(y, probes[j])
      {
        if probes[i].Some? && Abs(y - (probes[i].value + GroundHeight)) <= 0.2 {
          assert StandsOn(y, probes[i]);
          ok := true;
          break;
        }
        i := i + 1;
      }
    } else if Abs(y - GroundHeight) < 0.1 {
      ok := true;
    }
  }

  /** Space while walking: a jump starts from rest only when not already jumping and eligible. */
  function PressSpace(w: Walker, eligible: bool): (r: Walker)
    ensures r.y == w.y
    ensures r.isJumping == (w.isJumping || eligible)
    ensures !w.isJumping && eligible ==> r.vy == 0.0 && r.jumpFrame == 0
    ensures w.isJumping || !eligible ==> r == w
  {
    if !w.isJumping && eligible then w.(isJumping := true, vy := 0.0, jumpFrame := 0) else w
  }

  // ---------------------------------------------------------------------------
  // Jump and landing
  // ---------------------------------------------------------------------------

  /** Where a landing puts the eye: standing height over the hit, or the fixed floor height. */
  function LandingHeight(probe: GroundProbe): real
  {
    if probe.Hit? then probe.groundY + GroundHeight else GroundHeight
  }

  /**
   Whether the jump ends at eye height `y` and speed `vy`: over a hit, when
   falling with the feet (0.5 below the eye) within 0.3 above it; otherwise
   when the eye is at or below the fixed floor height.
   */
  predicate Lands(y: real, vy: real, probe: GroundProbe)
  {
    match probe
    case Hit(g) => vy <= 0.0 && y - 0.5 <= g + 0.3
    case _ => y <= GroundHeight
  }

  /**
   One frame of a jump: lift during the first 20 frames, gravity, the move,
   then the landing test on the probe cast from the new height.
   */
  function JumpTick(w: Walker, probe: GroundProbe): (r: Walker)
    ensures r.jumpFrame == if w.jumpFrame < JumpDuration then w.jumpFrame + 1 else w.jumpFrame
    ensures r.jumpFrame <= JumpDuration || r.jumpFrame == w.jumpFrame
    ensures var vy := w.vy + (if w.jumpFrame < JumpDuration then JumpAccel else 0.0) + Gravity;
            && (r.isJumping <==> !Lands(w.y + vy, vy, probe))
            && (r.isJumping ==> r.y == w.y + vy && r.vy == vy)
            && (!r.isJumping ==> r.vy == 0.0 && r.y == LandingHeight(probe))
  {
    var lifting := w.jumpFrame < JumpDuration;
    var vy := (if lifting then w.vy + JumpAccel else w.vy) + Gravity;
    var frame := if lifting then w.jumpFrame + 1 else w.jumpFrame;
    var y := w.y + vy;
    if Lands(y, vy, probe) then Walker(LandingHeight(probe), 0.0, false, frame)
    else Walker(y, vy, true, frame)
  }

  /** Jump frames driven by successive landing probes, until the jump ends. */
  function JumpRun(w: Walker, probes: seq<GroundProbe>): Walker
    decreases |probes|
  {
    if |probes| == 0 || !w.isJumping then w else JumpRun(JumpTick(w, probes[0]), probes[1..])
  }

  /** 0 + 1 + … + n. */
  function Tri(n: nat): real
  {
    if n == 0 then 0.0 else Tri(n - 1) + n as real
  }

  lemma {:induction false} TriClosedForm(n: nat)
    ensures 2.0 * Tri(n) == (n as real) * (n as real + 1.0)
  {
    if n > 0 {
      TriClosedForm(n - 1);
      assert (n as real - 1.0) * (n as real) + 2.0 * (n as real) == (n as real) * (n as real + 1.0);
    }
  }

  /** No landing probe can end a rising jump over a hit, or one that stays above the floor height. */
  predicate NoEarlyLanding(y0: real, probes: seq<GroundProbe>)
  {
    y0 >= GroundHeight || forall i :: 0 <= i < |probes| ==> probes[i].Hit?
  }

  /** The walker `k` lift frames into a jump from `y0`: speed 0.0045·k, height y0 + 0.0045·(1 + … + k). */
  function Rising(y0: real, k: nat): Walker
  {
    Walker(y0 + 0.0045 * Tri(k), 0.0045 * (k as real), true, k)
  }

  /** One lift frame that does not land takes the rising walker one frame on. */
  lemma RisingStep(y0: real, j: nat, probe: GroundProbe)
    requires j < JumpDuration
    requires y0 >= GroundHeight || probe.Hit?
    ensures JumpTick(Rising(y0, j), probe) == Rising(y0, j + 1)
  {
    var next := Rising(y0, j + 1);
    assert Tri(j + 1) == Tri(j) + (j + 1) as real;
    TriNonNeg(j);
    if !probe.Hit? {
      assert next.y > GroundHeight;
    }
    assert !Lands(next.y, next.vy, probe);
  }

  /** The rising phase: the remaining lift frames keep the pattern of `Rising`. */
  lemma {:induction false} AscentFrom(y0: real, j: nat, probes: seq<GroundProbe>)
    requires j + |probes| <= JumpDuration
    requires NoEarlyLanding(y0, probes)
    ensures JumpRun(Rising(y0, j), probes) == Rising(y0, j + |probes|)
    decreases |probes|
  {
    if |probes| > 0 {
      RisingStep(y0, j, probes[0]);
      assert NoEarlyLanding(y0, probes[1..]);
      AscentFrom(y0, j + 1, probes[1..]);
    }
  }

  lemma {:induction false} TriNonNeg(n: nat)
    ensures Tri(n) >= 0.0
  {
    if n > 0 {
      TriNonNeg(n - 1);
    }
  }

  /**
   A jump started by Space rises for its 20 lift frames without landing:
   after k of them the speed is 0.0045·k and the eye has risen by
   0.0045·(1 + 2 + … + k), which is 0.00225·k·(k + 1) by `TriClosedForm`.
   */
  lemma JumpAscent(w: Walker, probes: seq<GroundProbe>)
    requires !w.isJumping && |probes| <= JumpDuration
    requires NoEarlyLanding(w.y, probes)
    ensures JumpRun(PressSpace(w, true), probes)
            == Walker(w.y + 0.0045 * Tri(|probes|), 0.0045 * (|probes| as real), true, |probes|)
  {
    assert PressSpace(w, true) == Rising(w.y, 0);
    AscentFrom(w.y, 0, probes);
  }

  /** A landing over a hit leaves the eye at standing height above it, so Space works again. */
  lemma LandingRestoresEligibility(w: Walker, probe: GroundProbe, probes: seq<Option<real>>)
    requires !JumpTick(w, probe).isJumping
    ensures probe.Hit? ==> StandsOn(JumpTick(w, probe).y, Some(probe.groundY))
    ensures probe.Hit? && Some(probe.groundY) in probes ==> MayJump(JumpTick(w, probe).y, true, probes)
    ensures probe.NoGroundMeshes? ==> MayJump(JumpTick(w, probe).y, false, probes)
  {
    var r := JumpTick(w, probe);
    if probe.Hit? && Some(probe.groundY) in probes {
      var i :| 0 <= i < |probes| && probes[i] == Some(probe.groundY);
      assert StandsOn(r.y, probes[i]);
    }
  }

  // ---------------------------------------------------------------------------
  // Easing toward the ground while not jumping
  // ---------------------------------------------------------------------------

  /** The lower of a running minimum and one probe result; the first of equal hits is kept. */
  function Lower(lowest: Option<real>, hit: Option<real>): Option<real>
  {
    if hit.None? then lowest
    else if lowest.None? || hit.value < lowest.value then hit
    else lowest
  }

  /** The lowest hit among the probes, folded left to right as the probe loop does. */
  function LowestHit(probes: seq<Option<real>>): (r: Option<real>)
    ensures r.None? <==> forall i :: 0 <= i < |probes| ==> probes[i].None?
    ensures r.Some? ==> (exists i :: 0 <= i < |probes| && probes[i] == r)
                        && forall i :: 0 <= i < |probes| && probes[i].Some? ==> r.value <= probes[i].value
    decreases |probes|
  {
    if |probes| == 0 then None
    else Lower(LowestHit(probes[..|probes| - 1]), probes[|probes| - 1])
  }

  /** The easing probe loop: the running minimum over the foot probes. */
  method LowestGround(probes: seq<Option<real>>) returns (lowest: Option<real>)
    ensures lowest == LowestHit(probes)
  {
    lowest := None;
    var i := 0;
    while i < |probes|
      invariant 0 <= i <= |probes|
      invariant lowest == LowestHit(probes[..i])
    {
      assert probes[..i + 1][..i] == probes[..i];
      if probes[i].Some? {
        if lowest.None? || probes[i].value < lowest.value {
          lowest := probes[i];
        }
      }
      i := i + 1;
    }
    assert probes[..i] == probes;
  }

  /**
   One easing frame toward standing height over `ground`: the eye moves by
   `diff·min(0.3, 0.1 + 0.1·|diff|)` unless it is within 0.01 already.
   */
  function Ease(y: real, ground: real): (r: real)
    ensures var target := ground + GroundHeight;
            && (y <= r <= target || target <= r <= y)
            && (Abs(target - y) <= 0.01 ==> r == y)
            && (Abs(target - y) > 0.01 ==>
                  0.7 * Abs(target - y) <= Abs(target - r) <= 0.9 * Abs(target - y))
  {
    var diff := ground + GroundHeight - y;
    var adjust := Min(0.3, 0.1 + Abs(diff) * 0.1);
    assert 0.1 <= adjust <= 0.3 by {
      MulNonNeg(Abs(diff), 0.1);
    }
    if Abs(diff) > 0.01 then
      EaseGap(diff, adjust);
      y + diff * adjust
    else y
  }

  /** The part of the gap that a move by `diff·adjust` leaves. */
  lemma EaseGap(diff: real, adjust: real)
    requires 0.1 <= adjust <= 0.3
    ensures diff - diff * adjust == diff * (1.0 - adjust)
    ensures 0.7 * Abs(diff) <= Abs(diff * (1.0 - adjust)) <= 0.9 * Abs(diff)
    ensures 0.0 <= diff ==> 0.0 <= diff * adjust <= diff
    ensures diff <= 0.0 ==> diff <= diff * adjust <= 0.0
  {
    if diff >= 0.0 {
      MulNonNeg(diff, 1.0 - adjust - 0.7);
      MulNonNeg(diff, 0.9 - (1.0 - adjust));
      MulNonNeg(diff, adjust);
      MulNonNeg(diff, 1.0 - adjust);
    } else {
      MulNonNeg(-diff, 1.0 - adjust - 0.7);
      MulNonNeg(-diff, 0.9 - (1.0 - adjust));
      MulNonNeg(-diff, adjust);
      MulNonNeg(-diff, 1.0 - adjust);
    }
  }

  /** `n` easing frames over the same ground. */
  function EaseN(y: real, ground: real, n: nat): real
    decreases n
  {
    if n == 0 then y else EaseN(Ease(y, ground), ground, n - 1)
  }

  /**
   Easing settles: after `n` frames over the same ground the gap to
   standing height is at most 0.9ⁿ of the initial gap, or within the 0.01
   dead band where easing stops.
   */
  lemma {:induction false} EaseSettles(y: real, ground: real, n: nat)
    ensures var gap := Abs(ground + GroundHeight - EaseN(y, ground, n));
            gap <= 0.01 || gap <= Contracted(n, Abs(ground + GroundHeight - y))
    decreases n
  {
    var target := ground + GroundHeight;
    if n == 0 {
      assert Contracted(0, Abs(target - y)) == Abs(target - y);
    } else if Abs(target - y) <= 0.01 {
      EaseStaysPut(y, ground, n);
    } else {
      var y1 := Ease(y, ground);
      var after := EaseN(y1, ground, n - 1);
      assert EaseN(y, ground, n) == after;
      EaseSettles(y1, ground, n - 1);
      assert Abs(target - y1) <= 0.9 * Abs(target - y);
      GapShrinks(Abs(target - after), n, Abs(target - y1), Abs(target - y));
    }
  }

  /** `gap` after `n` contractions by 0.9. */
  function Contracted(n: nat, gap: real): real
  {
    Pow(0.9, n) * gap
  }

  /** A bound on the gap carried through one more 0.9 contraction. */
  lemma GapShrinks(gap: real, n: nat, g1: real, g0: real)
    requires n > 0 && g1 <= 0.9 * g0
    requires gap <= 0.01 || gap <= Contracted(n - 1, g1)
    ensures gap <= 0.01 || gap <= Contracted(n, g0)
  {
    var p := Pow(0.9, n - 1);
    PowNonNeg(0.9, n - 1);
    PowShift(0.9, n - 1);
    MulMono(p, g1, 0.9 * g0);
    assert p * (0.9 * g0) == Pow(0.9, n) * g0;
  }

  lemma EaseDeadBand(y: real, ground: real)
    requires Abs(ground + GroundHeight - y) <= 0.01
    ensures Ease(y, ground) == y
  {
  }

  /** Inside the dead band the eye does not move any more. */
  lemma {:induction false} EaseStaysPut(y: real, ground: real, n: nat)
    requires Abs(ground + GroundHeight - y) <= 0.01
    ensures EaseN(y, ground, n) == y
    decreases n
  {
    if n > 0 {
      EaseDeadBand(y, ground);
      EaseStaysPut(Ease(y, ground), ground, n - 1);
    }
  }

  lemma {:induction false} PowNonNeg(b: real, n: nat)
    requires b >= 0.0
    ensures Pow(b, n) >= 0.0
  {
    if n > 0 {
      PowNonNeg(b, n - 1);
      MulNonNeg(b, Pow(b, n - 1));
    }
  }

  lemma MulMono(k: real, a: real, b: real)
    requires k >= 0.0 && a <= b
    ensures k * a <= k * b
  {
    MulNonNeg(k, b - a);
  }

  // ---------------------------------------------------------------------------
  // The whole vertical frame
  // ---------------------------------------------------------------------------

  /**
   The vertical part of a walking frame: a jump frame while jumping;
   otherwise, when ground meshes exist and some foot probe hits, one easing
   frame toward the lowest hit.
   */
  method VerticalFrame(w: Walker, landing: GroundProbe, haveGround: bool, feet: seq<Option<real>>)
    returns (r: Walker)
    ensures w.isJumping ==> r == JumpTick(w, landing)
    ensures !w.isJumping ==> r.vy == w.vy && !r.isJumping && r.jumpFrame == w.jumpFrame
    ensures !w.isJumping && (!haveGround || forall i :: 0 <= i < |feet| ==> feet[i].None?) ==> r.y == w.y
    ensures !w.isJumping && haveGround && LowestHit(feet).Some? ==>
              var target := LowestHit(feet).value + GroundHeight;
              (w.y <= r.y <= target || target <= r.y <= w.y)
              && forall i :: 0 <= i < |feet| && feet[i].Some? ==> r.y <= Max(w.y, feet[i].value + GroundHeight)
  {
    if w.isJumping {
      r := JumpTick(w, landing);
    } else if haveGround {
      var lowest := LowestGround(feet);
      if lowest.Some? {
        r := w.(y := Ease(w.y, lowest.value));
      } else {
        r := w;
      }
    } else {
      r := w;
    }
  }
}

=== FILE: props.dfy ===
/**
 `updatePhysicsObjects`: the per-tick step of the loose physics props — the
 spawn counter, car impacts, gravity and integration with per-tick decay,
 the wall reflection and push-out, and the ground snap with its fall-speed
 floor. Raycast results, the collider bounding box and the random spin
 axes are inputs.
 */
module Props {
  import opened Base
  import CarStep
  import Chassis

  /** The physics record of one prop. */
  datatype Prop = Prop(
    pos: Vec3, vel: Vec3, angVel: Vec3,
    gravity: real, friction: real,
    isSpawning: bool, spawnFrameCount: nat, needsInitialPositioning: bool,
    isGrounded: bool, groundFrameCount: nat, isActive: bool)

  const Zero: Vec3 := Vec3(0.0, 0.0, 0.0)

  /** A prop as its loader creates it: at rest, spawning, awaiting initial placement. */
  function NewProp(pos: Vec3): (p: Prop)
    ensures p.isSpawning && p.spawnFrameCount == 0 && p.needsInitialPositioning
    ensures p.vel == Zero && p.gravity == -9.81 && p.friction == 0.98
    ensures p.angVel == Zero && !p.isActive && !p.isGrounded && p.groundFrameCount == 0
  {
    Prop(pos, Zero, Zero, -9.81, 0.98, true, 0, true, false, 0, false)
  }

  // ---------------------------------------------------------------------------
  // Spawn counter
  // ---------------------------------------------------------------------------

  /** Counts spawning ticks; the eleventh ends spawning and the initial-placement request. */
  function SpawnTick(p: Prop): (r: Prop)
    ensures !p.isSpawning ==> r == p
    ensures p.isSpawning && p.spawnFrameCount < 10 ==>
              r == p.(spawnFrameCount := p.spawnFrameCount + 1)
    ensures p.isSpawning && p.spawnFrameCount >= 10 ==>
              !r.isSpawning && r.spawnFrameCount == 0 && !r.needsInitialPositioning
    ensures r.pos == p.pos && r.vel == p.vel && r.angVel == p.angVel
  {
    if p.isSpawning then
      var c := p.spawnFrameCount + 1;
      if c > 10 then p.(isSpawning := false, spawnFrameCount := 0, needsInitialPositioning := false)
      else p.(spawnFrameCount := c)
    else p
  }

  function SpawnTicks(p: Prop, n: nat): Prop
    decreases n
  {
    if n == 0 then p else SpawnTicks(SpawnTick(p), n - 1)
  }

  /** A prop that has counted `c` spawning ticks stays spawning for exactly `11 - c` more. */
  lemma {:induction false} SpawnLasts(p: Prop, n: nat)
    requires p.isSpawning && p.spawnFrameCount <= 10
    ensures SpawnTicks(p, n).isSpawning <==> p.spawnFrameCount + n <= 10
    decreases n
  {
    if n > 0 {
      var q := SpawnTick(p);
      if p.spawnFrameCount < 10 {
        SpawnLasts(q, n - 1);
      } else {
        StaysSettled(q, n - 1);
      }
    }
  }

  lemma {:induction false} StaysSettled(p: Prop, n: nat)
    requires !p.isSpawning
    ensures !SpawnTicks(p, n).isSpawning
    decreases n
  {
    if n > 0 {
      StaysSettled(SpawnTick(p), n - 1);
    }
  }

  /** A new prop spawns for exactly eleven ticks. */
  lemma NewPropSpawnsElevenTicks(pos: Vec3)
    ensures SpawnTicks(NewProp(pos), 10).isSpawning
    ensures !SpawnTicks(NewProp(pos), 11).isSpawning
  {
    SpawnLasts(NewProp(pos), 10);
    SpawnLasts(NewProp(pos), 11);
  }

  // ---------------------------------------------------------------------------
  // Car impacts
  // ---------------------------------------------------------------------------

  /** Cars closer than 2.5 (compared on squares, as only the comparison matters). */
  predicate InRange(p: Prop, car: CarStep.Car)
  {
    SqLen(Sub(p.pos, car.pos)) < 6.25
  }

  /**
   The impact of one car within range: the prop is thrown away from the car
   at 0.8 of the car's speed, lifted by 0.6 of it, and spun about `axis` at
   1.5 of it — but only when the car moves faster than 0.5.
   */
  function Impact(p: Prop, car: CarStep.Car, s: CarStep.DriveState, axis: Vec3, num: Numerics): (r: Prop)
    ensures CarStep.Speed(s, num) <= 0.5 ==> r == p
    ensures var speed := CarStep.Speed(s, num);
            var dir := Normalize(Sub(p.pos, car.pos), num);
            speed > 0.5 ==>
              && r.isActive && r.pos == p.pos
              && r.vel.x == p.vel.x + dir.x * (speed * 0.8)
              && r.vel.z == p.vel.z + dir.z * (speed * 0.8)
              && r.vel.y == p.vel.y + dir.y * (speed * 0.8) + speed * 0.6
              && r.angVel == Add(p.angVel, Scale(axis, speed * 1.5))
    ensures r.isSpawning == p.isSpawning && r.needsInitialPositioning == p.needsInitialPositioning
  {
    var carSpeed := CarStep.Speed(s, num);
    if carSpeed > 0.5 then
      var dir := Normalize(Sub(p.pos, car.pos), num);
      var v := Add(p.vel, Scale(dir, carSpeed * 0.8));
      var v' := v.(y := v.y + Abs(carSpeed) * 0.6);
      p.(vel := v', angVel := Add(p.angVel, Scale(axis, carSpeed * 1.5)), isActive := true)
    else p
  }

  /**
   Apart from the lift, the impact pushes the prop along the line from the
   car to the prop and away from the car (given a square root that is never
   negative, as `Math.sqrt` is not).
   */
  lemma ImpactAwayFromCar(p: Prop, car: CarStep.Car, s: CarStep.DriveState, axis: Vec3, num: Numerics)
    requires CarStep.Speed(s, num) > 0.5
    requires num.sqrt(SqLen(Sub(p.pos, car.pos))) >= 0.0
    ensures var speed := CarStep.Speed(s, num);
            var off := Sub(p.pos, car.pos);
            var r := Impact(p, car, s, axis, num);
            var push := Vec3(r.vel.x - p.vel.x, r.vel.y - p.vel.y - speed * 0.6, r.vel.z - p.vel.z);
            PointsAlong(push, off)
  {
    var speed := CarStep.Speed(s, num);
    var off := Sub(p.pos, car.pos);
    var r := Impact(p, car, s, axis, num);
    KickAlongLine(p.vel, r.vel, off, num, speed * 0.8, speed * 0.6);
    assert PointsAlong(Vec3(r.vel.x - p.vel.x, r.vel.y - p.vel.y - speed * 0.6, r.vel.z - p.vel.z), off);
  }

  /** `u` lies on the line of `a`, on the same side as `a` (or is zero). */
  predicate PointsAlong(u: Vec3, a: Vec3)
  {
    && Dot(u, a) >= 0.0
    && u.x * a.z == u.z * a.x
    && u.y * a.x == u.x * a.y
  }

  /** Velocity `v` kicked to `v'` by `c` along the normalized `off`, plus a lift. */
  lemma KickAlongLine(v: Vec3, v': Vec3, off: Vec3, num: Numerics, c: real, lift: real)
    requires c >= 0.0 && num.sqrt(SqLen(off)) >= 0.0
    requires var dir := Normalize(off, num);
             && v'.x == v.x + dir.x * c && v'.z == v.z + dir.z * c
             && v'.y == v.y + dir.y * c + lift
    ensures var push := Vec3(v'.x - v.x, v'.y - v.y - lift, v'.z - v.z);
            PointsAlong(push, off)
  {
    var push := Vec3(v'.x - v.x, v'.y - v.y - lift, v'.z - v.z);
    assert push == Scale(Normalize(off, num), c);
    ScaledDirectionAlongLine(off, num, c);
  }

  /** A non-negative multiple of a normalized vector lies on its line, on its side. */
  lemma ScaledDirectionAlongLine(a: Vec3, num: Numerics, c: real)
    requires c >= 0.0 && num.sqrt(SqLen(a)) >= 0.0
    ensures var u := Scale(Normalize(a, num), c);
            PointsAlong(u, a)
  {
    var len := num.sqrt(SqLen(a));
    if len == 0.0 {
      ScaledAlongLine(a, c);
    } else {
      var k := c / len;
      assert k >= 0.0;
      ScaleOfInverse(a, len, c);
      ScaledAlongLine(a, k);
    }
  }

  lemma ScaleOfInverse(a: Vec3, len: real, c: real)
    requires len != 0.0
    ensures Scale(Scale(a, 1.0 / len), c) == Scale(a, c / len)
  {
    assert (a.x * (1.0 / len)) * c == a.x * (c / len);
    assert (a.y * (1.0 / len)) * c == a.y * (c / len);
    assert (a.z * (1.0 / len)) * c == a.z * (c / len);
  }

  /** A non-negative multiple of `a` points along `a`. */
  lemma ScaledAlongLine(a: Vec3, k: real)
    requires k >= 0.0
    ensures var u := Scale(a, k);
            PointsAlong(u, a)
  {
    assert Dot(Scale(a, k), a) == k * SqLen(a);
    MulNonNeg(k, SqLen(a));
  }

  /** The prop after the car loop, or the index of the car whose missing physics record makes it throw. */
  datatype Impacts = Impacts(prop: Prop, threwAt: Option<nat>)

  /** A driven car within 2.5 of the prop and faster than 0.5: it kicks the prop. */
  predicate Bumps(p: Prop, car: CarStep.Car, num: Numerics)
  {
    InRange(p, car) && car.state.Some? && CarStep.Speed(car.state.value, num) > 0.5
  }

  /**
   The car loop, from car `i` on. A car in range whose physics record was
   never created (it has not been driven yet) makes the source read a field
   of `null` and throw, which stops the whole update.
   */
  function CarImpacts(p: Prop, cars: seq<CarStep.Car>, axes: seq<Vec3>, i: nat, num: Numerics): (r: Impacts)
    requires |axes| == |cars| && i <= |cars|
    ensures r.threwAt.Some? ==>
              i <= r.threwAt.value < |cars|
              && InRange(r.prop, cars[r.threwAt.value]) && cars[r.threwAt.value].state.None?
    ensures r.threwAt.Some? ==>
              forall j :: i <= j < r.threwAt.value && InRange(p, cars[j]) ==> cars[j].state.Some?
    ensures r.threwAt.None? ==>
              forall j :: i <= j < |cars| && cars[j].state.None? ==> !InRange(p, cars[j])
    ensures (forall j :: i <= j < |cars| ==> !Bumps(p, cars[j], num)) ==> r.prop == p
    ensures r.threwAt.None? && (exists j :: i <= j < |cars| && Bumps(p, cars[j], num)) ==> r.prop.isActive
    ensures r.prop.isActive ==> p.isActive || exists j :: i <= j < |cars| && Bumps(p, cars[j], num)
    ensures p.isActive ==> r.prop.isActive
    ensures r.prop.pos == p.pos
    ensures r.prop.isSpawning == p.isSpawning && r.prop.needsInitialPositioning == p.needsInitialPositioning
    decreases |cars| - i
  {
    if i == |cars| then Impacts(p, None)
    else
      var car := cars[i];
      if InRange(p, car) then
        match car.state
        case None => Impacts(p, Some(i))
        case Some(s) =>
          var q := Impact(p, car, s, axes[i], num);
          ImpactIsBump(p, car, s, axes[i], num);
          SamePlaceSameCars(p, q, num);
          CarImpacts(q, cars, axes, i + 1, num)
      else CarImpacts(p, cars, axes, i + 1, num)
  }

  /** An impact activates the prop exactly when the car bumps it, and leaves it in place. */
  lemma ImpactIsBump(p: Prop, car: CarStep.Car, s: CarStep.DriveState, axis: Vec3, num: Numerics)
    requires car.state == Some(s) && InRange(p, car)
    ensures var q := Impact(p, car, s, axis, num);
            && q.pos == p.pos
            && (Bumps(p, car, num) ==> q.isActive)
            && (!Bumps(p, car, num) ==> q == p)
  {
  }

  /** Two records at the same place are in range of, and bumped by, the same cars. */
  lemma SamePlaceSameCars(p: Prop, q: Prop, num: Numerics)
    requires p.pos == q.pos
    ensures forall car :: InRange(q, car) == InRange(p, car) && Bumps(q, car, num) == Bumps(p, car, num)
  {
  }

  /** A car that has never been driven, parked within 2.5 of a prop, makes the update throw. */
  lemma UndrivenCarThrows(p: Prop, car: CarStep.Car, axis: Vec3, num: Numerics)
    requires car.state.None? && InRange(p, car)
    ensures CarImpacts(p, [car], [axis], 0, num).threwAt == Some(0)
  {
  }

  /** A driven car within range applies its impulse to the prop, and the loop goes on. */
  lemma DrivenCarKicks(p: Prop, car: CarStep.Car, s: CarStep.DriveState, axis: Vec3, num: Numerics)
    requires car.state == Some(s) && InRange(p, car)
    ensures CarImpacts(p, [car], [axis], 0, num) == Impacts(Impact(p, car, s, axis, num), None)
  {
  }

  /** The velocity one car adds to the prop: the kick along the car-to-prop line plus the lift. */
  function Kick(p: Prop, car: CarStep.Car, num: Numerics): Vec3
  {
    if Bumps(p, car, num) then
      var speed := CarStep.Speed(car.state.value, num);
      var dir := Normalize(Sub(p.pos, car.pos), num);
      Vec3(dir.x * (speed * 0.8), dir.y * (speed * 0.8) + speed * 0.6, dir.z * (speed * 0.8))
    else Zero
  }

  /** The kicks of cars `i..` added up. */
  function KickSum(p: Prop, cars: seq<CarStep.Car>, i: nat, num: Numerics): Vec3
    decreases |cars| - i
  {
    if i >= |cars| then Zero else Add(Kick(p, cars[i], num), KickSum(p, cars, i + 1, num))
  }

  /** The kicks depend on the prop only through its position. */
  lemma {:induction false} KickSumDependsOnPos(p: Prop, q: Prop, cars: seq<CarStep.Car>, i: nat, num: Numerics)
    requires p.pos == q.pos
    ensures KickSum(p, cars, i, num) == KickSum(q, cars, i, num)
    decreases |cars| - i
  {
    if i < |cars| {
      KickSumDependsOnPos(p, q, cars, i + 1, num);
      SamePlaceSameKick(p, q, cars[i], num);
    }
  }

  lemma SamePlaceSameKick(p: Prop, q: Prop, car: CarStep.Car, num: Numerics)
    requires p.pos == q.pos
    ensures Kick(p, car, num) == Kick(q, car, num)
  {
    SamePlaceSameCars(p, q, num);
  }

  /**
   When the loop does not throw, the prop's velocity has gained exactly the
   kicks of the driven cars in range that move faster than 0.5.
   */
  lemma {:induction false} KicksAddUp(p: Prop, cars: seq<CarStep.Car>, axes: seq<Vec3>, i: nat, num: Numerics)
    requires |axes| == |cars| && i <= |cars|
    requires CarImpacts(p, cars, axes, i, num).threwAt.None?
    ensures CarImpacts(p, cars, axes, i, num).prop.vel == Add(p.vel, KickSum(p, cars, i, num))
    decreases |cars| - i
  {
    if i < |cars| {
      var car := cars[i];
      var r := CarImpacts(p, cars, axes, i, num);
      var rest := KickSum(p, cars, i + 1, num);
      assert KickSum(p, cars, i, num) == Add(Kick(p, car, num), rest);
      if !InRange(p, car) {
        assert r == CarImpacts(p, cars, axes, i + 1, num);
        KicksAddUp(p, cars, axes, i + 1, num);
        AddZero(p.vel, rest);
      } else if car.state.None? {
        assert false;
      } else {
        var q := Impact(p, car, car.state.value, axes[i], num);
        assert r == CarImpacts(q, cars, axes, i + 1, num);
        KicksAddUp(q, cars, axes, i + 1, num);
        ImpactIsBump(p, car, car.state.value, axes[i], num);
        KickSumDependsOnPos(p, q, cars, i + 1, num);
        ImpactAddsKick(p, car, car.state.value, axes[i], num);
        AddAssoc(p.vel, Kick(p, car, num), rest);
      }
    }
  }

  lemma AddZero(v: Vec3, w: Vec3)
    ensures Add(v, Add(Zero, w)) == Add(v, w)
  {
  }

  lemma AddAssoc(u: Vec3, v: Vec3, w: Vec3)
    ensures Add(Add(u, v), w) == Add(u, Add(v, w))
  {
  }

  /** One impact adds exactly that car's kick to the velocity. */
  lemma ImpactAddsKick(p: Prop, car: CarStep.Car, s: CarStep.DriveState, axis: Vec3, num: Numerics)
    requires car.state == Some(s) && InRange(p, car)
    ensures Impact(p, car, s, axis, num).vel == Add(p.vel, Kick(p, car, num))
  {
    var speed := CarStep.Speed(s, num);
    if speed > 0.5 {
      var dir := Normalize(Sub(p.pos, car.pos), num);
      assert Kick(p, car, num) == Vec3(dir.x * (speed * 0.8), dir.y * (speed * 0.8) + speed * 0.6, dir.z * (speed * 0.8));
    } else {
      assert Kick(p, car, num) == Zero;
    }
  }

  // ---------------------------------------------------------------------------
  // Integration
  // ---------------------------------------------------------------------------

  /**
   Gravity on `vel.y`, then the move by `vel·delta`, then the per-tick
   decay of velocity (by `friction`) and spin (by 0.95). The orientation
   update from the spin is not modelled.
   */
  function Integrate(p: Prop, delta: real): (r: Prop)
    ensures r.pos.x == p.pos.x + p.vel.x * delta && r.pos.z == p.pos.z + p.vel.z * delta
    ensures r.pos.y - p.pos.y == (p.vel.y + p.gravity * delta) * delta
    ensures r.vel.x == p.vel.x * p.friction && r.vel.z == p.vel.z * p.friction
    ensures r.vel.y == (p.vel.y + p.gravity * delta) * p.friction
    ensures r.angVel == Scale(p.angVel, 0.95)
    ensures r.gravity == p.gravity && r.friction == p.friction
  {
    var v := p.vel.(y := p.vel.y + p.gravity * delta);
    p.(pos := Add(p.pos, Scale(v, delta)), vel := Scale(v, p.friction), angVel := Scale(p.angVel, 0.95))
  }

  /** Integration over one tick per entry of `deltas`. */
  function IntegrateAll(p: Prop, deltas: seq<real>): Prop
    decreases |deltas|
  {
    if |deltas| == 0 then p else IntegrateAll(Integrate(p, deltas[0]), deltas[1..])
  }

  /** The part of a prop that integration decays, whatever the tick length. */
  datatype Decay = Decay(vx: real, vz: real, angVel: Vec3, friction: real)

  function DecayOf(p: Prop): Decay
  {
    Decay(p.vel.x, p.vel.z, p.angVel, p.friction)
  }

  /** One tick of decay: friction on the horizontal velocity, 0.95 on the spin. */
  function DecayTick(d: Decay): Decay
  {
    Decay(d.vx * d.friction, d.vz * d.friction, Scale(d.angVel, 0.95), d.friction)
  }

  /** `n` ticks of decay in closed form. */
  function DecayTicks(d: Decay, n: nat): Decay
  {
    Decay(d.vx * Pow(d.friction, n), d.vz * Pow(d.friction, n), Scale(d.angVel, Pow(0.95, n)), d.friction)
  }

  lemma IntegrateDecays(p: Prop, delta: real)
    ensures DecayOf(Integrate(p, delta)) == DecayTick(DecayOf(p))
  {
  }

  /** One tick followed by n - 1 more is n ticks. */
  lemma DecayTicksShift(d: Decay, n: nat)
    requires n > 0
    ensures DecayTicks(DecayTick(d), n - 1) == DecayTicks(d, n)
  {
    DampShift(d.vx, d.friction, n);
    DampShift(d.vz, d.friction, n);
    PowShift(0.95, n - 1);
    ScaleTwice(d.angVel, 0.95, Pow(0.95, n - 1));
  }

  lemma DampShift(x: real, f: real, n: nat)
    requires n > 0
    ensures (x * f) * Pow(f, n - 1) == x * Pow(f, n)
  {
    PowShift(f, n - 1);
    DecayCompose(x, x * f, (x * f) * Pow(f, n - 1), f, Pow(f, n - 1), Pow(f, n));
  }

  /**
   The decay is per tick, not per second: after ticks of any lengths the
   horizontal velocity is friction^n of what it was and the spin 0.95^n,
   with n the number of ticks.
   */
  lemma {:induction false} DecayDependsOnTickCount(p: Prop, deltas: seq<real>)
    ensures DecayOf(IntegrateAll(p, deltas)) == DecayTicks(DecayOf(p), |deltas|)
    decreases |deltas|
  {
    if |deltas| == 0 {
      assert DecayTicks(DecayOf(p), 0) == DecayOf(p);
    } else {
      var q := Integrate(p, deltas[0]);
      IntegrateDecays(p, deltas[0]);
      DecayDependsOnTickCount(q, deltas[1..]);
      DecayTicksShift(DecayOf(p), |deltas|);
    }
  }

  /** Decaying by `f` and then by `fn` is decaying by their product `fn1`. */
  lemma DecayCompose(a: real, a1: real, a2: real, f: real, fn: real, fn1: real)
    requires a1 == a * f && a2 == a1 * fn && fn1 == f * fn
    ensures a2 == a * fn1
  {
  }

  lemma ScaleTwice(a: Vec3, k1: real, k2: real)
    ensures Scale(Scale(a, k1), k2) == Scale(a, k1 * k2)
  {
  }

  // ---------------------------------------------------------------------------
  // Walls
  // ---------------------------------------------------------------------------

  /** A prop treats a hit as a wall when `|normal.y| < 0.5`, stricter than the car's 0.7. */
  predicate IsPropWall(hit: Option<Vec3>)
  {
    hit.Some? && Abs(hit.value.y) < 0.5
  }

  /** A normal with up-component 0.6 stops a car but not a prop. */
  lemma WallThresholdsDiffer()
    ensures Chassis.IsCarWallHit(Some(Chassis.WallHit(0.1, 0.6)))
    ensures !IsPropWall(Some(Vec3(0.8, 0.6, 0.0)))
  {
  }

  /** The first of the five probe results that is a wall, or `|hits|` when none is. */
  function FirstWall(hits: seq<Option<Vec3>>): (k: nat)
    ensures k <= |hits|
    ensures k < |hits| ==> IsPropWall(hits[k])
    ensures forall j :: 0 <= j < k ==> !IsPropWall(hits[j])
  {
    if |hits| == 0 then 0
    else if IsPropWall(hits[0]) then 0
    else 1 + FirstWall(hits[1..])
  }

  /** The wall normal flattened onto the ground plane and normalized. */
  function WallNormal(n: Vec3, num: Numerics): (w: Vec3)
    ensures w.y == 0.0
    ensures w.x * n.z == w.z * n.x
    ensures n.x != 0.0 || n.z != 0.0 ==> w.x != 0.0 || w.z != 0.0
    ensures num.sqrt(n.x * n.x + n.z * n.z) >= 0.0 ==> w.x * n.x + w.z * n.z >= 0.0
  {
    FlatNormalKeepsLine(n, num);
    Normalize(Vec3(n.x, 0.0, n.z), num)
  }

  lemma FlatNormalKeepsLine(n: Vec3, num: Numerics)
    ensures var w := Normalize(Vec3(n.x, 0.0, n.z), num);
            && w.y == 0.0
            && w.x * n.z == w.z * n.x
            && (n.x != 0.0 || n.z != 0.0 ==> w.x != 0.0 || w.z != 0.0)
            && (num.sqrt(n.x * n.x + n.z * n.z) >= 0.0 ==> w.x * n.x + w.z * n.z >= 0.0)
  {
    var a := Vec3(n.x, 0.0, n.z);
    var len := num.sqrt(SqLen(a));
    assert SqLen(a) == n.x * n.x + n.z * n.z;
    if len != 0.0 {
      var k := 1.0 / len;
      assert k != 0.0;
      assert (n.x * k) * n.x + (n.z * k) * n.z == k * (n.x * n.x + n.z * n.z);
      if len > 0.0 {
        assert k > 0.0;
        MulNonNeg(k, n.x * n.x + n.z * n.z);
      }
      assert (n.x * k) * n.z == (n.z * k) * n.x;
      assert n.x != 0.0 ==> n.x * k != 0.0;
      assert n.z != 0.0 ==> n.z * k != 0.0;
    }
  }

  /** How far the prop is pushed out: its half-width across the wall plus 0.05, at least 0.15. */
  function PushDistance(w: Vec3, bbSize: Vec3): (d: real)
    ensures d >= 0.15
    ensures d == 0.15 || d == Max(Abs(w.x) * bbSize.x, Abs(w.z) * bbSize.z) / 2.0 + 0.05
    ensures d >= Max(Abs(w.x) * bbSize.x, Abs(w.z) * bbSize.z) / 2.0 + 0.05
  {
    Max(0.15, Max(Abs(w.x) * bbSize.x, Abs(w.z) * bbSize.z) / 2.0 + 0.05)
  }

  /**
   Reflection of the horizontal velocity off a wall with normal `w`: when
   moving into the wall, the horizontal velocity is REPLACED by the normal
   component reversed at restitution 0.4 — the tangential part is dropped.
   */
  function Reflect(v: Vec3, w: Vec3): (r: Vec3)
    ensures r.y == v.y
    ensures Dot(Vec3(v.x, 0.0, v.z), w) >= 0.0 ==> r == v
    ensures var d := Dot(Vec3(v.x, 0.0, v.z), w);
            d < 0.0 ==>
              && r.x * w.z - r.z * w.x == 0.0
              && r.x * w.x + r.z * w.z == -0.8 * d * (w.x * w.x + w.z * w.z)
              && r.x * w.x + r.z * w.z >= 0.0
  {
    var d := Dot(Vec3(v.x, 0.0, v.z), w);
    if d < 0.0 then
      var k := -2.0 * d * 0.4;
      assert (w.x * k) * w.x + (w.z * k) * w.z == k * (w.x * w.x + w.z * w.z);
      MulNonNeg(k, w.x * w.x + w.z * w.z);
      Vec3(w.x * k, v.y, w.z * k)
    else v
  }

  /**
   Against a unit wall normal, a prop moving into the wall leaves at 0.8 of
   its speed into the wall, and the reflection never speeds up its
   horizontal motion.
   */
  lemma ReflectionSlows(v: Vec3, w: Vec3)
    requires w.y == 0.0 && w.x * w.x + w.z * w.z == 1.0
    ensures var r := Reflect(v, w);
            var d := Dot(Vec3(v.x, 0.0, v.z), w);
            && (d < 0.0 ==> r.x * r.x + r.z * r.z == 0.64 * (d * d))
            && r.x * r.x + r.z * r.z <= v.x * v.x + v.z * v.z
  {
    var r := Reflect(v, w);
    var d := Dot(Vec3(v.x, 0.0, v.z), w);
    assert d == v.x * w.x + v.z * w.z;
    NormalPartBounded(v.x, v.z, w.x, w.z);
    if d < 0.0 {
      var k := -2.0 * d * 0.4;
      assert r == Vec3(w.x * k, v.y, w.z * k);
      ScaledUnitLength(w.x, w.z, k);
      assert k * k == 0.64 * (d * d);
    }
  }

  /** The part of (a, b) along a unit (c, e) is no longer than (a, b) (Lagrange's identity). */
  lemma NormalPartBounded(a: real, b: real, c: real, e: real)
    requires c * c + e * e == 1.0
    ensures (a * c + b * e) * (a * c + b * e) <= a * a + b * b
  {
    var t := a * e - b * c;
    assert (a * c + b * e) * (a * c + b * e) + t * t == (a * a + b * b) * (c * c + e * e);
    SquareNonNeg(t);
  }

  lemma SquareNonNeg(x: real)
    ensures x * x >= 0.0
  {
    if x < 0.0 {
      MulNonNeg(-x, -x);
    } else {
      MulNonNeg(x, x);
    }
  }

  /** A unit (c, e) scaled by k has squared length k². */
  lemma ScaledUnitLength(c: real, e: real, k: real)
    requires c * c + e * e == 1.0
    ensures (c * k) * (c * k) + (e * k) * (e * k) == k * k
  {
    assert (c * k) * (c * k) + (e * k) * (e * k) == (k * k) * (c * c + e * e);
  }

  /** Sliding along a wall at a shallow angle stops the slide: only the bounce off the wall is kept. */
  lemma ReflectionDropsTangent()
    ensures Reflect(Vec3(3.0, 0.0, -1.0), Vec3(0.0, 0.0, 1.0)) == Vec3(0.0, 0.0, 0.8)
  {
  }

  /**
   The wall pass: only with wall meshes and a horizontal speed above 0.01;
   the first probe that reports a wall reflects the velocity and pushes the
   prop out along the flattened normal.
   */
  function WallPass(p: Prop, haveWalls: bool, hits: seq<Option<Vec3>>, bbSize: Vec3, num: Numerics): (r: Prop)
    ensures !haveWalls || SqLen(Vec3(p.vel.x, 0.0, p.vel.z)) <= 0.0001 || FirstWall(hits) == |hits| ==> r == p
    ensures haveWalls && SqLen(Vec3(p.vel.x, 0.0, p.vel.z)) > 0.0001 && FirstWall(hits) < |hits| ==>
              var w := WallNormal(hits[FirstWall(hits)].value, num);
              && r.isActive
              && r.vel == Reflect(p.vel, w)
              && Sub(r.pos, p.pos) == Scale(w, PushDistance(w, bbSize))
  {
    var k := FirstWall(hits);
    if haveWalls && SqLen(Vec3(p.vel.x, 0.0, p.vel.z)) > 0.0001 && k < |hits| then
      var w := WallNormal(hits[k].value, num);
      p.(vel := Reflect(p.vel, w), pos := Add(p.pos, Scale(w, PushDistance(w, bbSize))), isActive := true)
    else p
  }

  // ---------------------------------------------------------------------------
  // Ground
  // ---------------------------------------------------------------------------

  /**
   Whether the ground pass runs: ground meshes exist, and the prop still
   awaits its initial placement or has finished spawning. A prop already
   placed but still spawning skips the pass and falls freely.
   */
  predicate GroundPassRuns(p: Prop, probe: GroundProbe)
  {
    !probe.NoGroundMeshes? && (p.needsInitialPositioning || !p.isSpawning)
  }

  /** The centre height that rests the collider's bottom 0.05 above the ground. */
  function RestHeight(p: Prop, groundY: real, bbMinY: real): real
  {
    groundY + 0.05 + (p.pos.y - bbMinY)
  }

  /**
   Moves the centre height toward `target`: at once for the initial
   placement or when within 0.01, else by `min(|diff|, |vy·delta| + 0.5)`.
   The move goes down as well as up.
   */
  function Approach(y: real, target: real, vy: real, delta: real, initial: bool): (r: real)
    ensures initial || Abs(target - y) <= 0.01 ==> r == target
    ensures y <= r <= target || target <= r <= y
    ensures !initial && Abs(target - y) > 0.01 ==>
              Abs(r - y) == Min(Abs(target - y), Abs(vy * delta) + 0.5)
  {
    var diff := target - y;
    if initial then target
    else if Abs(diff) > 0.01 then y + Sign(diff) * Min(Abs(diff), Abs(vy * delta) + 0.5)
    else target
  }

  /** The snap pulls a prop resting above its target down, not only up. */
  lemma GroundSnapPullsDown()
    ensures Approach(5.0, 1.0, 0.0, 0.016, false) == 4.5
  {
  }

  /**
   The ground pass. On a hit the centre approaches the resting height, the
   fall speed is floored at -2, and a prop slower than 0.1 (compared on
   squares) stops and loses 15% of its spin. On a miss only the fall-speed
   floor applies.
   */
  function GroundPass(p: Prop, probe: GroundProbe, bbMinY: real, delta: real): (r: Prop)
    ensures !GroundPassRuns(p, probe) ==> r == p
    ensures GroundPassRuns(p, probe) ==> r.vel.y >= -2.0
    ensures GroundPassRuns(p, probe) && probe.Miss? ==>
              !r.isGrounded && r.pos == p.pos && r.vel.y == Max(p.vel.y, -2.0)
    ensures GroundPassRuns(p, probe) && probe.Miss? ==>
              r == p.(isGrounded := false, groundFrameCount := 0, vel := p.vel.(y := Max(p.vel.y, -2.0)))
    ensures GroundPassRuns(p, probe) && probe.Hit? ==>
              var target := RestHeight(p, probe.groundY, bbMinY);
              && r.isGrounded && !r.needsInitialPositioning && r.groundFrameCount == 3
              && r.pos.x == p.pos.x && r.pos.z == p.pos.z
              && r.pos.y == Approach(p.pos.y, target, p.vel.y, delta, p.needsInitialPositioning)
              && (p.needsInitialPositioning ==> r.pos.y == target)
              && (p.pos.y <= r.pos.y <= target || target <= r.pos.y <= p.pos.y)
              && (SqLen(p.vel) < 0.01 ==> r.vel == Zero && r.angVel == Scale(p.angVel, 0.85))
              && (SqLen(p.vel) >= 0.01 ==> r.vel == p.vel.(y := Max(p.vel.y, -2.0)) && r.angVel == p.angVel)
  {
    if !GroundPassRuns(p, probe) then p
    else match probe
      case Miss =>
        p.(isGrounded := false, groundFrameCount := 0, vel := p.vel.(y := Max(p.vel.y, -2.0)))
      case Hit(g) =>
        var target := RestHeight(p, g, bbMinY);
        var y := Approach(p.pos.y, target, p.vel.y, delta, p.needsInitialPositioning);
        var floored := p.vel.(y := Max(p.vel.y, -2.0));
        var slow := SqLen(p.vel) < 0.01;
        p.(pos := p.pos.(y := y),
           needsInitialPositioning := false,
           vel := if slow then Zero else floored,
           angVel := if slow then Scale(p.angVel, 0.85) else p.angVel,
           isGrounded := true, groundFrameCount := 3)
  }

  // ---------------------------------------------------------------------------
  // The whole step
  // ---------------------------------------------------------------------------

  /** What the prop's probes report this tick. */
  datatype PropInputs = PropInputs(
    axes: seq<Vec3>,
    haveWalls: bool, wallHits: seq<Option<Vec3>>, bbSize: Vec3,
    ground: GroundProbe, bbMinY: real)

  /**
   One prop's tick: spawn counter, car impacts, integration, walls, ground.
   When a car impact throws, the prop keeps the changes made so far.
   */
  function PropStep(p: Prop, cars: seq<CarStep.Car>, inp: PropInputs, delta: real, num: Numerics): (r: Impacts)
    requires |inp.axes| == |cars|
    ensures r.threwAt.Some? ==> r.threwAt.value < |cars| && cars[r.threwAt.value].state.None?
    ensures r.threwAt.None? && GroundPassRuns(SpawnTick(p), inp.ground) ==> r.prop.vel.y >= -2.0
  {
    var spawned := SpawnTick(p);
    var hit := CarImpacts(spawned, cars, inp.axes, 0, num);
    if hit.threwAt.Some? then hit
    else
      var moved := Integrate(hit.prop, delta);
      var walled := WallPass(moved, inp.haveWalls, inp.wallHits, inp.bbSize, num);
      Impacts(GroundPass(walled, inp.ground, inp.bbMinY, delta), None)
  }

  /**
   Ground-snap idempotence at rest: a settled prop whose collider bottom
   sits 0.05 above flat ground, with no horizontal motion, no cars and
   |vy| ≤ 2, is back at the same height after a tick of up to one second.
   */
  lemma RestingPropStaysPut(p: Prop, g: real, offset: real, delta: real, num: Numerics)
    requires !p.isSpawning && !p.needsInitialPositioning
    requires p.vel.x == 0.0 && p.vel.z == 0.0 && -2.0 <= p.vel.y <= 2.0
    requires p.gravity == -9.81 && p.friction == 0.98
    requires p.pos.y == g + 0.05 + offset
    requires 0.0 <= delta <= 1.0
    ensures var moved := Integrate(p, delta);
            var inp := PropInputs([], true, [], Zero, Hit(g), moved.pos.y - offset);
            PropStep(p, [], inp, delta, num).prop.pos.y == p.pos.y
  {
    var moved := Integrate(p, delta);
    var inp := PropInputs([], true, [], Zero, Hit(g), moved.pos.y - offset);
    RestingSnapBack(p, moved, g, offset, delta);
    StepHeight(p, inp, delta, num, p.pos.y);
  }

  /** The height a settled prop ends a car- and wall-free tick at is the one its ground pass gives. */
  lemma StepHeight(p: Prop, inp: PropInputs, delta: real, num: Numerics, y: real)
    requires !p.isSpawning && inp.axes == [] && inp.wallHits == []
    requires GroundPass(Integrate(p, delta), inp.ground, inp.bbMinY, delta).pos.y == y
    ensures PropStep(p, [], inp, delta, num).prop.pos.y == y
  {
    StepWithoutCarsOrWalls(p, inp, delta, num);
  }

  /** Without cars or wall hits, a settled prop's tick is integration followed by the ground pass. */
  lemma StepWithoutCarsOrWalls(p: Prop, inp: PropInputs, delta: real, num: Numerics)
    requires !p.isSpawning && inp.axes == [] && inp.wallHits == []
    ensures PropStep(p, [], inp, delta, num)
            == Impacts(GroundPass(Integrate(p, delta), inp.ground, inp.bbMinY, delta), None)
  {
    assert SpawnTick(p) == p;
    assert CarImpacts(p, [], [], 0, num) == Impacts(p, None);
    var moved := Integrate(p, delta);
    assert WallPass(moved, inp.haveWalls, [], inp.bbSize, num) == moved;
  }

  /** The ground pass after integrating a resting prop puts it back at its starting height. */
  lemma RestingSnapBack(p: Prop, moved: Prop, g: real, offset: real, delta: real)
    requires !p.isSpawning && !p.needsInitialPositioning
    requires p.vel.x == 0.0 && p.vel.z == 0.0 && -2.0 <= p.vel.y <= 2.0
    requires p.gravity == -9.81 && p.friction == 0.98
    requires p.pos.y == g + 0.05 + offset
    requires 0.0 <= delta <= 1.0
    requires moved == Integrate(p, delta)
    ensures GroundPass(moved, Hit(g), moved.pos.y - offset, delta).pos.y == p.pos.y
  {
    var drop := (p.vel.y - 9.81 * delta) * delta;
    FallWithinOneSecond(p.vel.y, delta);
    assert moved.vel.y * delta == 0.98 * drop;
    SnapBackAfterDrop(moved, g, offset, delta, drop);
  }

  /** A placed prop that dropped by `drop` (its decayed speed covering 98% of it) snaps back. */
  lemma SnapBackAfterDrop(q: Prop, g: real, offset: real, delta: real, drop: real)
    requires !q.isSpawning && !q.needsInitialPositioning
    requires -11.81 <= drop <= 2.0
    requires q.pos.y == g + 0.05 + offset + drop
    requires q.vel.y * delta == 0.98 * drop
    ensures GroundPass(q, Hit(g), q.pos.y - offset, delta).pos.y == g + 0.05 + offset
  {
    var target := RestHeight(q, g, q.pos.y - offset);
    assert target == g + 0.05 + offset;
    assert target - q.pos.y == -drop;
    SnapWithinReach(drop);
    assert Abs(target - q.pos.y) <= Abs(q.vel.y * delta) + 0.5;
    ApproachReaches(q.pos.y, target, q.vel.y, delta);
    GroundPassHitHeight(q, g, q.pos.y - offset, delta);
  }

  /** A placed prop over a hit approaches its rest height without an initial jump. */
  lemma GroundPassHitHeight(p: Prop, g: real, bbMinY: real, delta: real)
    requires !p.isSpawning && !p.needsInitialPositioning
    ensures GroundPass(p, Hit(g), bbMinY, delta).pos.y
            == Approach(p.pos.y, RestHeight(p, g, bbMinY), p.vel.y, delta, false)
  {
  }

  /** A drop of at most 11.81 is within the snap's reach after the 0.98 decay. */
  lemma SnapWithinReach(drop: real)
    requires -11.81 <= drop <= 2.0
    ensures Abs(-drop) <= Abs(0.98 * drop) + 0.5
  {
  }

  /** The drop of one tick of at most a second, from |vy| <= 2, stays within [-11.81, 2]. */
  lemma FallWithinOneSecond(vy: real, d: real)
    requires -2.0 <= vy <= 2.0 && 0.0 <= d <= 1.0
    ensures -11.81 <= (vy - 9.81 * d) * d <= 2.0
  {
    var v := vy - 9.81 * d;
    assert -11.81 <= v <= 2.0;
    if v >= 0.0 {
      MulNonNeg(v, 1.0 - d);
      assert v * (1.0 - d) == v - v * d;
      MulNonNeg(v, d);
    } else {
      MulNonNeg(-v, 1.0 - d);
      assert (-v) * (1.0 - d) == v * d - v;
      MulNonNeg(-v, d);
      assert (-v) * d == -(v * d);
      assert v * d >= v;
      assert (vy - 9.81 * d) * d == v * d;
      assert -11.81 <= v * d <= 2.0;
    }
  }

  /** When the gap is within the step limit, the snap lands exactly on the target. */
  lemma ApproachReaches(y: real, target: real, vy: real, delta: real)
    requires Abs(target - y) <= Abs(vy * delta) + 0.5
    ensures Approach(y, target, vy, delta, false) == target
  {
  }

  // ---------------------------------------------------------------------------
  // The list of props
  // ---------------------------------------------------------------------------

  /** The list after `updatePhysicsObjects`, and the prop whose car loop threw, if any. */
  datatype Update = Update(props: seq<Prop>, threwAt: Option<nat>)

  /** The index of the first step result that threw, if any. */
  function FirstThrow(results: seq<Impacts>): (t: Option<nat>)
    ensures t.None? <==> forall i :: 0 <= i < |results| ==> results[i].threwAt.None?
    ensures t.Some? ==>
              && t.value < |results|
              && results[t.value].threwAt.Some?
              && forall i :: 0 <= i < t.value ==> results[i].threwAt.None?
    decreases |results|
  {
    if |results| == 0 then None
    else if results[0].threwAt.Some? then Some(0)
    else
      var rest := FirstThrow(results[1..]);
      assert forall i :: 0 < i < |results| ==> results[1..][i - 1] == results[i];
      if rest.None? then None else Some(rest.value + 1)
  }

  /** The props the step results carry, in order. */
  function Outcomes(results: seq<Impacts>): (ps: seq<Prop>)
    ensures |ps| == |results|
    ensures forall i :: 0 <= i < |results| ==> ps[i] == results[i].prop
    decreases |results|
  {
    if |results| == 0 then [] else [results[0].prop] + Outcomes(results[1..])
  }

  /**
   The walk over the props' step results that a throw interrupts: results
   are taken in order until one throws; that prop keeps its partial
   changes and the props after it are left as they were.
   */
  function Collect(props: seq<Prop>, results: seq<Impacts>): (u: Update)
    requires |results| == |props|
    ensures |u.props| == |props|
    ensures u.threwAt.None? <==> forall i :: 0 <= i < |results| ==> results[i].threwAt.None?
    ensures u.threwAt.None? ==> forall i :: 0 <= i < |props| ==> u.props[i] == results[i].prop
    ensures u.threwAt.Some? ==>
              && u.threwAt.value < |props|
              && results[u.threwAt.value].threwAt.Some?
              && (forall i :: 0 <= i < u.threwAt.value ==> results[i].threwAt.None?)
              && (forall i :: 0 <= i <= u.threwAt.value ==> u.props[i] == results[i].prop)
              && (forall i :: u.threwAt.value < i < |props| ==> u.props[i] == props[i])
  {
    var t := FirstThrow(results);
    if t.None? then Update(Outcomes(results), None)
    else Update(Interrupted(props, results, t.value), t)
  }

  /** The props after a throw at `t`: stepped up to and including `t`, as they were after it. */
  function Interrupted(props: seq<Prop>, results: seq<Impacts>, t: nat): (ps: seq<Prop>)
    requires |results| == |props| && t < |props|
    ensures |ps| == |props|
    ensures forall i :: 0 <= i <= t ==> ps[i] == results[i].prop
    ensures forall i :: t < i < |props| ==> ps[i] == props[i]
  {
    var done := Outcomes(results[..t + 1]);
    assert forall i :: 0 <= i <= t ==> done[i] == results[i].prop;
    done + props[t + 1..]
  }

  /** Every prop's own step result, in order. */
  function Steps(props: seq<Prop>, cars: seq<CarStep.Car>, inputs: seq<PropInputs>, delta: real, num: Numerics): (r: seq<Impacts>)
    requires |inputs| == |props|
    requires forall i :: 0 <= i < |inputs| ==> |inputs[i].axes| == |cars|
    ensures |r| == |props|
    ensures forall i :: 0 <= i < |props| ==> r[i] == PropStep(props[i], cars, inputs[i], delta, num)
    decreases |props|
  {
    if |props| == 0 then []
    else
      var rest := Steps(props[1..], cars, inputs[1..], delta, num);
      assert forall i :: 0 < i < |props| ==> props[1..][i - 1] == props[i] && inputs[1..][i - 1] == inputs[i];
      [PropStep(props[0], cars, inputs[0], delta, num)] + rest
  }

  /**
   `updatePhysicsObjects`: steps every prop in order until a car loop
   throws. Without a throw every prop has taken its own step.
   */
  function UpdateAll(props: seq<Prop>, cars: seq<CarStep.Car>, inputs: seq<PropInputs>, delta: real, num: Numerics): (u: Update)
    requires |inputs| == |props|
    requires forall i :: 0 <= i < |inputs| ==> |inputs[i].axes| == |cars|
    ensures |u.props| == |props|
    ensures u.threwAt.None? <==>
              forall i :: 0 <= i < |props| ==> PropStep(props[i], cars, inputs[i], delta, num).threwAt.None?
    ensures u.threwAt.None? ==>
              forall i :: 0 <= i < |props| ==> u.props[i] == PropStep(props[i], cars, inputs[i], delta, num).prop
  {
    Collect(props, Steps(props, cars, inputs, delta, num))
  }

  /**
   A throw stops the update at the first prop whose car loop throws: the
   props before it are stepped in full, it keeps its partial changes, and
   the props after it are untouched.
   */
  lemma UpdateAllStopsAtFirstThrow(props: seq<Prop>, cars: seq<CarStep.Car>, inputs: seq<PropInputs>,
                                   delta: real, num: Numerics)
    requires |inputs| == |props|
    requires forall i :: 0 <= i < |inputs| ==> |inputs[i].axes| == |cars|
    ensures var u := UpdateAll(props, cars, inputs, delta, num);
            u.threwAt.Some? ==>
              && u.threwAt.value < |props|
              && PropStep(props[u.threwAt.value], cars, inputs[u.threwAt.value], delta, num).threwAt.Some?
              && (forall i :: 0 <= i < u.threwAt.value ==> PropStep(props[i], cars, inputs[i], delta, num).threwAt.None?)
              && (forall i :: 0 <= i <= u.threwAt.value ==>
                    u.props[i] == PropStep(props[i], cars, inputs[i], delta, num).prop)
              && (forall i :: u.threwAt.value < i < |props| ==> u.props[i] == props[i])
  {
    var results := Steps(props, cars, inputs, delta, num);
    var u := Collect(props, results);
    assert UpdateAll(props, cars, inputs, delta, num) == u;
    if u.threwAt.Some? {
      var t := u.threwAt.value;
      assert results[t] == PropStep(props[t], cars, inputs[t], delta, num);
      forall i | 0 <= i <= t
        ensures i < t ==> PropStep(props[i], cars, inputs[i], delta, num).threwAt.None?
        ensures u.props[i] == PropStep(props[i], cars, inputs[i], delta, num).prop
      {
        assert results[i] == PropStep(props[i], cars, inputs[i], delta, num);
      }
    }
  }
}
